=== FILE: README.md ===
# nvidia-smi2ha in Dafny

A model of the pure logic inside `nvidia-smi2ha.py`. The script bridges
`nvidia-smi` to Home Assistant over MQTT in these steps:

1. It runs `nvidia-smi pci -i 0` for the GPU listing. The script's comment calls this the output of all GPUs, but `-i 0` asks about GPU 0 only. The model takes the listing as an arbitrary string.
2. It extracts `(index, name, uuid)` triples with one regular expression.
3. It builds the ordered dictionary `gpu_info`.
4. It publishes one Home Assistant discovery document per GPU and sensor, then `online`.
5. It streams `nvidia-smi dmon --format csv -s pucvmet`. Each data row goes through
   `parse_csv_data` and is published as a state message.

The model replaces the processes and the broker with values:

- The GPU listing and the `dmon` output are strings.
- Whether `nvidia-smi` runs at all is a boolean.
- The MQTT client becomes a list of events: the connect carrying the last
  will, then the publishes in order.
- The process exit status is an integer.

Modules, in dependency order:

| module | file | models |
|---|---|---|
| `Wrappers` | wrappers.dfy | `Option` and `Result`, for Python's `None` and the `KeyError` path |
| `Text` | text.dfy | `str.replace(c, '')`, `str.strip()`, `str.split(sep)`, `"".join` |
| `Pattern` | pattern.dfy | the fragment of `re` the listing pattern uses: literals and greedy `[class]+` runs |
| `Sequences` | sequences.dfy | duplicate-free sequences, and the first and last positions of an element |
| `OrderedMap` | ordered_map.dfy | Python dicts as association lists: insertion order, rebinding in place, `del`, dict comprehensions |
| `Scanner` | scanner.dfy | `re.findall`'s left-to-right, non-overlapping search over the match attempts at each offset |
| `GpuListing` | gpu_listing.dfy | the listing regex, `findall`, and `gpu_info` |
| `Columns` | columns.dfy | `column_json_description`, the 21 sensors |
| `Dmon` | dmon.dfy | header, unit and data row splitting, and `parse_csv_data` |
| `Mqtt` | mqtt.dfy | topics, discovery documents, publishes, the last will and `online` |
| `Discovery` | discovery.dfy | the discovery loop over GPUs and sensors |
| `Stream` | stream.dfy | `readline()` and the read-parse-publish loop |
| `Bridge` | bridge.dfy | the whole run: checks, session, loop and exit status; the routing discrepancy of line 234 |

## Model

| member | source | states |
|---|---|---|
| Text.RemoveChar | nvidia-smi2ha.py:216-217 | `replace('#', '')` leaves no `#`. It deletes exactly the `#` characters and keeps the count of every other character. It leaves a line without `#` unchanged. |
| Text.RemoveCharAppend | nvidia-smi2ha.py:216-217 | Removing `#` from a concatenation is removing it from each part and concatenating the results. With `Text.RemoveCharOne` this fixes the result completely, so the kept characters stay in their order. |
| Text.RemoveCharOne | nvidia-smi2ha.py:216-217 | On one character, `#` becomes the empty string and any other character is kept. |
| Text.Strip | nvidia-smi2ha.py:216-217 | The stripped text sits in the input with only whitespace before and after it. It neither starts nor ends with whitespace. |
| Text.StripUnique | nvidia-smi2ha.py:228 | Any infix surrounded by whitespace that does not itself start or end with whitespace is the stripped text, so `strip()` is fully determined. |
| Text.StripIdempotent | nvidia-smi2ha.py:228 | Stripping twice is stripping once. |
| Text.Split | nvidia-smi2ha.py:216-217 | `split(', ')` yields at least one piece. Joining the pieces with `", "` gives the string back. No piece contains `", "`, and the first piece ends where the leftmost occurrence starts. |
| Text.SplitUnique | nvidia-smi2ha.py:216-217 | For a separator whose occurrences cannot overlap, such as `", "`, the split is the only list of separator-free pieces that joins back to the string. |
| Text.FindFrom | nvidia-smi2ha.py:216 | The separator search returns the first occurrence at or after the start position, or none when there is none. |
| Text.JoinStart | nvidia-smi2ha.py:228 | A joined row begins with its first field. When the first field is empty and more follow, it begins with the separator. |
| Pattern.Span | nvidia-smi2ha.py:28 | A greedy `[class]+` run takes the longest prefix inside the class. The character after it, if any, is outside the class. |
| Pattern.MatchPieces | nvidia-smi2ha.py:28 | An anchored match splits the text into chunks, one per pattern piece, followed by the unmatched rest. Each chunk fits its piece. |
| Pattern.MatchPiecesComplete | nvidia-smi2ha.py:28 | Conversely, for a pattern where each run is followed by a literal starting outside the run's class, every split into fitting chunks is the one the matcher finds. So the greedy matcher loses nothing to backtracking. |
| Scanner.Scan | nvidia-smi2ha.py:28 | `findall` returns the matches at the leftmost offsets, in order, without overlap. No match starting at an uncovered offset is skipped. |
| Scanner.ScanEmpty | nvidia-smi2ha.py:28 | `findall` is empty exactly when no offset matches. |
| GpuListing.ChunksOf | nvidia-smi2ha.py:28 | A well-formed triple renders as text that splits into pattern chunks, and the groups of those chunks are the triple again. |
| GpuListing.GroupsOf | nvidia-smi2ha.py:28 | Chunks that fit the pattern give a well-formed triple, and rendering it gives the chunks back. |
| GpuListing.MatchAtSound | nvidia-smi2ha.py:28 | A match at an offset has the following parts, and its rendered text occurs there: an all-digit index; a name of two word tokens separated by one space; a uuid made of `GPU-` and one or more `[a-z0-9-]` characters. |
| GpuListing.MatchAtComplete | nvidia-smi2ha.py:28 | Every well-formed triple whose text occurs at an offset is the match found there. |
| GpuListing.FindAllSound | nvidia-smi2ha.py:28 | Every triple `findall` returns is well-formed and its text occurs in the listing. |
| GpuListing.FindAllEmpty | nvidia-smi2ha.py:28 | `findall` comes back empty exactly when the pattern matches at no offset. |
| GpuListing.SingleMatchListing | nvidia-smi2ha.py:28-35 | A listing that is exactly one triple's text yields exactly that triple and a one-entry `gpu_info`. |
| GpuListing.OneA100Listing | nvidia-smi2ha.py:28-35 | The listing `GPU 0: NVIDIA A100 (UUID: GPU-1234)` yields `{"0": {"name": "NVIDIA A100", "uuid": "GPU-1234"}}`. |
| GpuListing.GpuInfoWellFormed | nvidia-smi2ha.py:28-35 | Every `gpu_info` entry is keyed by an all-digit index and holds a two-word name and a `GPU-` uuid, which contains no `_`. |
| GpuListing.GpuInfoContents | nvidia-smi2ha.py:30-35 | `gpu_info` holds each index once, ordered by first appearance. A repeated index keeps its first position but takes the name and uuid of its last match. |
| GpuListing.GpuInfoEmpty | nvidia-smi2ha.py:37-39 | `gpu_info` is empty exactly when the listing matches nowhere. |
| OrderedMap.GetPut | nvidia-smi2ha.py:35 | `d[k] = v` binds `k` to `v` and leaves every other key's value alone. |
| OrderedMap.Put | nvidia-smi2ha.py:35 | Rebinding keeps the key set and its order. A new key is appended. No key is ever bound twice. |
| OrderedMap.FromPairsKeys | nvidia-smi2ha.py:199 | A dictionary built by assigning pairs in order has each key once, in order of first appearance. |
| OrderedMap.FromPairsGet | nvidia-smi2ha.py:199 | Each key of that dictionary holds the value of its last pair. |
| OrderedMap.Remove | nvidia-smi2ha.py:201 | `del d[k]` leaves a dictionary with each key once, without `k`, and with every other key of `d`. |
| OrderedMap.GetRemove | nvidia-smi2ha.py:201 | `del d[k]` unbinds `k` and leaves every other key's value alone. |
| OrderedMap.RemoveKeepsOrder | nvidia-smi2ha.py:201 | `del d[k]` keeps the remaining keys in their order. |
| Columns.TableShape | nvidia-smi2ha.py:57-163 | The sensor table has 21 entries under pairwise distinct keys, in the order `pwr` … `txpci`. |
| Dmon.HeaderRow | nvidia-smi2ha.py:216-217 | A cleaned header or unit row is non-empty, and no field contains `#` or `", "`. Joined with `", "`, it is the line with `#` removed and then stripped. |
| Dmon.HeaderRowUnique | nvidia-smi2ha.py:216-217 | Any non-empty list of fields free of `", "` that joins with `", "` to the cleaned line is the header row: the cleaned line is split at every `", "`. |
| Dmon.DataRow | nvidia-smi2ha.py:228 | A data row is non-empty and no field contains `", "`. Joined with `", "`, it is the stripped line. |
| Dmon.DataRowUnique | nvidia-smi2ha.py:228 | Any non-empty list of fields free of `", "` that joins with `", "` to the stripped line is the data row: the stripped line is split at every `", "`. |
| Dmon.HeaderRowWithoutHash | nvidia-smi2ha.py:216-228 | On a line without `#`, header cleaning and data splitting agree. |
| Dmon.DataRowKeepsHash | nvidia-smi2ha.py:228 | A data line starting with `#` (a reprinted header) is not skipped, and its first field keeps the `#`. |
| Dmon.Pairs | nvidia-smi2ha.py:199 | `zip(headers, units, values)` pairs each of the first min-length headers with its value, position by position. |
| Dmon.NullMissing | nvidia-smi2ha.py:203-205 | The filter loop keeps the keys and their order. It turns a value into `None` exactly when it is `"-"` and keeps every other value verbatim. |
| Dmon.ParseCsvData | nvidia-smi2ha.py:197-210 | `parse_csv_data` has one error, the `KeyError` for `gpu`. A record's payload holds each key once and does not hold `gpu`. |
| Dmon.ParseFailure | nvidia-smi2ha.py:197-201 | Mismatched row lengths are no error. The call fails, with `KeyError('gpu')`, exactly when no zipped header is `gpu`. |
| Dmon.ParseGpuId | nvidia-smi2ha.py:199-200 | The returned GPU index is the value zipped with the last `gpu` header. |
| Dmon.ParsePayloadKeys | nvidia-smi2ha.py:199-201 | The payload keys are exactly the zipped headers other than `gpu`, each once, in the order the headers first appear. |
| Dmon.ParsePayloadValue | nvidia-smi2ha.py:199-205 | A payload value is `None` exactly when the token zipped with the last occurrence of its header is `"-"`. Any other token, `""` and `"0"` included, is kept verbatim. |
| Dmon.ParseIgnoresUnits | nvidia-smi2ha.py:199 | The unit row matters only through how many columns it lets `zip` through. |
| Dmon.PowerAndMissingSm | nvidia-smi2ha.py:197-210 | Headers `gpu, pwr, sm`, units `Idx, W, %` and the row `0, 120, -` give GPU index `0` and payload `{pwr: "120", sm: null}`. |
| Mqtt.StateTopicInjective | nvidia-smi2ha.py:234-235 | Two state topics `nvidia-smi/{uuid}` are equal exactly when the uuids are. |
| Discovery.TemplateNamesKey | nvidia-smi2ha.py:180 | The value template `{{ value_json.KEY }}` reads back exactly its key. |
| Discovery.ConfigTopicOfUniqueId | nvidia-smi2ha.py:169-182 | The config topic is `homeassistant/sensor/` + unique id + `/config`. |
| Discovery.UniqueIdInjective | nvidia-smi2ha.py:182 | For uuids without `_`, `uuid_key` determines both the uuid and the key, in both directions. |
| Discovery.ConfigTopicInjective | nvidia-smi2ha.py:169 | For uuids without `_`, the config topic determines both the uuid and the key, in both directions. |
| Discovery.AnnouncementContents | nvidia-smi2ha.py:169-189 | Each discovery publish, unretained at QoS 0, goes to the config topic named after its unique id. Its template names its key. It carries the GPU's state topic, the availability topic, a 60-second expiry, the uuid as device identifier, the GPU name as model, and the sensor's name and unit. |
| Discovery.AnnouncementsSendDefaults | nvidia-smi2ha.py:189 | Every discovery publish is sent with paho's defaults, QoS 0 and no retain. |
| Discovery.AnnouncementsCount | nvidia-smi2ha.py:166-168 | There is one discovery publish per GPU and sensor. |
| Discovery.AnnouncementAt | nvidia-smi2ha.py:166-189 | Sensor `c` of GPU `g` is announced at position `g × |table| + c`: GPU-major, in table order. |
| Discovery.AnnouncementOf | nvidia-smi2ha.py:166-189 | Every discovery publish is the document of some sensor of some GPU. |
| Discovery.ListedUuidsWithoutUnderscore | nvidia-smi2ha.py:28-35 | No uuid in `gpu_info` contains `_`. |
| Discovery.AnnouncementsDistinct | nvidia-smi2ha.py:166-189 | Given distinct sensor keys and distinct uuids without `_`, all discovery publishes have pairwise distinct unique ids and config topics. |
| Discovery.ListingAnnouncementsCount | nvidia-smi2ha.py:166-168 | For the script's own table, any listing's GPUs get 21 discovery publishes each. |
| Discovery.ListingAnnouncements | nvidia-smi2ha.py:166-189 | For the script's own table, when the listed uuids are distinct, the discovery publishes have pairwise distinct unique ids and config topics. |
| Stream.ReadLine | nvidia-smi2ha.py:221 | `readline()` splits the output into a line and what remains. The line is non-empty unless the output is. It holds no newline before its last character, and it ends at a newline whenever anything remains. |
| Stream.ReadLineCases | nvidia-smi2ha.py:221 | With a newline in the output, the line read ends at the first newline. With none, the line read is the whole output and nothing remains. |
| Stream.LinesSplitOutput | nvidia-smi2ha.py:219-225 | The lines read before the empty read are non-empty. Every line but the last ends at a newline, none holds another newline, and together they are the whole output. |
| Stream.Loop | nvidia-smi2ha.py:219-237 | The loop publishes the outcome of each line, in order. It stops at the empty read after the last line, or at the first line whose parse or topic lookup fails, and ends with that failure. |
| Stream.LoopSendsDefaults | nvidia-smi2ha.py:237 | Every state publish of the loop is sent with paho's defaults, QoS 0 and no retain. |
| Stream.LoopPublishesLine | nvidia-smi2ha.py:228-237 | As written, publish `i` carries the payload of line `i` to the one fixed state topic. |
| Stream.LoopWithGpuFirst | nvidia-smi2ha.py:219-237 | As written, with `gpu` as the first header the loop never fails: it publishes once per line until the end of the output. |
| Stream.LoopByGpuIdRoutes | nvidia-smi2ha.py:230-237 | Routed by the row's own index, publish `i` carries the payload of line `i` to the state topic of the GPU registered under that index. |
| Stream.ByGpuIdFailure | nvidia-smi2ha.py:230-234 | Routed by the row's own index, a line fails either in `parse_csv_data`, with the `KeyError` for `gpu`, or with the `KeyError` for an index `gpu_info` does not hold. |
| Stream.LoopByGpuIdCrash | nvidia-smi2ha.py:219-237 | Routed by the row's own index, a loop that ends in failure stops at the line after the last publish, and that line's outcome is the failure. The failure is the `KeyError` for `gpu` when the row does not parse, or the `KeyError` for the row's index when `gpu_info` does not hold it. |
| Bridge.DmonSplit | nvidia-smi2ha.py:216-221 | The header read, the unit read and the loop's reads take the `dmon` output apart without loss. |
| Bridge.RouteIsLastGpu | nvidia-smi2ha.py:234-235 | As written, the state topic is that of `gpu_info[gpu_id]`, where `gpu_id` is left over from the loop at line 166: the last GPU in `gpu_info`. |
| Bridge.StartSound | nvidia-smi2ha.py:17-39 | The script gets past its checks exactly when `nvidia-smi` runs and the listing matches somewhere. `gpu_info` is then non-empty and well-formed. |
| Bridge.RunStopsEarly | nvidia-smi2ha.py:17-39 | If `nvidia-smi` is missing or no GPU is listed, the script exits with status 1 before connecting (line 55) and sends nothing. Otherwise it sends something. |
| Bridge.SessionQos | nvidia-smi2ha.py:52-237 | The connect carries the last will `offline` on the availability topic, at QoS 1 and not retained. Every event after it is a publish at QoS 0, not retained: the discovery documents, `online` and the states alike. |
| Bridge.SessionShape | nvidia-smi2ha.py:52-237 | The session connects with the `offline` last will, announces every sensor of every GPU, sends `online`, then sends the state publishes in order. It exits with status 0 exactly when the loop reached the end of the output. |
| Bridge.RunAsWritten | nvidia-smi2ha.py:17-240 | The script as written connects, with the last will first, exactly when `nvidia-smi` runs and the listing names a GPU. It exits with status 0 or 1, and with 0 only after connecting. Bridge.RunsAreSessions, Bridge.SessionShape and Bridge.MisroutedRow give the events in between. |
| Bridge.Run | nvidia-smi2ha.py:17-240 | The corrected script connects, with the last will first, exactly when `nvidia-smi` runs and the listing names a GPU. It exits with status 0 or 1, and with 0 only after connecting. It routes each record by its own row's GPU index (Stream.LoopByGpuIdRoutes). Unlike the script as written, it exits with status 1 at a reprinted `#` header line (Bridge.ReprintedHeaderExit). |
| Stream.GpuIdIsFirstValue | nvidia-smi2ha.py:198-199 | With `gpu` as the first header and nowhere else, `parse_csv_data` succeeds and its `gpu_id` is the row's first value, whatever that value is. |
| Stream.LoopStopsAtFailure | nvidia-smi2ha.py:218-236 | A line whose parse or state-topic lookup fails ends the loop in a crash. Nothing from that line on is published. |
| Bridge.ReprintedHeader | nvidia-smi2ha.py:226-234 | A line starting with `#` once stripped yields a record whose index starts with `#`. Sent to a fixed topic, as written, it is published. Looked up by its index, it is in no `gpu_info` a listing yields, and raises the `KeyError` for that index. |
| Bridge.ReprintedHeaderExit | nvidia-smi2ha.py:218-240 | With `gpu` the only index column and a reprinted `#` header among the data lines, the script as written exits with status 0. The corrected script exits with status 1 and publishes no state from that line on. |
| Bridge.RunsAreSessions | nvidia-smi2ha.py:37-55 | Past the checks, both runs are a session over `gpu_info` and the 21-sensor table. |
| Bridge.WrittenSessionCompletes | nvidia-smi2ha.py:216-240 | As written, when `dmon` names the `gpu` column first, the session sends one state publish per data line and exits with status 0. |
| Bridge.MisroutedRecord | nvidia-smi2ha.py:234-235 | With distinct uuids, a record of any GPU but the last goes, as written, to the last GPU's topic and not its own. Routed by its own index, it goes to its own. |
| Bridge.MisroutedRow | nvidia-smi2ha.py:219-237 | The same holds in the loop for every published line about any GPU but the last. |
| Bridge.TwoGpusMisrouted | nvidia-smi2ha.py:234-235 | With two A100s indexed 0 and 1, a record of GPU 0 goes to `nvidia-smi/GPU-5678` as written and to `nvidia-smi/GPU-1234` when routed by its index. |

## Left out

- Process I/O (lines 18-25, 213, 221, 240). Running `nvidia-smi`, `Popen`, the pipe and `process.wait()` are not modelled. The model takes the listing and the `dmon` output as strings. Whether `nvidia-smi` runs is a boolean, which also covers a failing listing command at line 25.
- The MQTT client (lines 43-55, 189, 193, 237). Client creation, credentials, the broker connection and delivery are not modelled. The client is a list of events: one `Connect` carrying the last will, then the publishes. A connection failure at line 55, an uncaught exception, is not modelled.
- Environment variables and the `int()` parse of the port (lines 12-15): configuration only.
- JSON text (lines 41, 189, 208). `json.dumps` is not modelled. Discovery documents are a `Config` record and state payloads an ordered key/optional-value list. Line 41 computes a string and discards it, so it has no effect.
- The `print` calls (lines 21, 34, 38, 218): console output only.
- Regex character classes are ASCII only. Python's `\w` and `\d` also accept other Unicode letters and digits.
- Bytes are not modelled: `.decode()` is taken as the identity on already-decoded text.
- Stream.Loop does not model an output that never ends. The output is a finite string, so the loop always stops.
- Bridge.Run: corrects only the lookup at line 234 and, like the script, does not skip reprinted `#` header lines. It therefore does not keep the exit status of the script as written: where a reprinted header appears among the data lines, it exits with status 1 instead of 0 (Bridge.ReprintedHeaderExit). Skipping those lines would be a second change the script does not suggest.
- Shutdown, an `offline` publish at exit, re-announcement on a Home Assistant restart, reconnection, and skipping of malformed rows or unknown GPU indices. The script does none of these: after the loop it only calls `process.wait()` (line 240), so the model has nothing to model.

Facts about the script that a reader might not expect, each modelled as the script behaves:

- The script does not skip reprinted `#` header lines in the stream. It parses them as data (Dmon.DataRowKeepsHash), and with the corrected lookup such a line crashes the script (Bridge.ReprintedHeaderExit).
- A row whose length differs from the header row is no error, because `zip` truncates (Dmon.ParseFailure).
- The script retains neither `online` nor the last will (Bridge.SessionQos).
- A row without a `gpu` column ends the script with an uncaught `KeyError` and exit status 1. The script does not skip it.
- As written, the script does not route rows by their GPU index (see Findings).

## Findings

| source | as written | input that shows it | evidently intended | confidence | as-written member | corrected member |
|---|---|---|---|---|---|---|
| nvidia-smi2ha.py:234 | The state topic is looked up with `gpu_id`, the variable left over from the discovery loop at line 166, which holds the last key of `gpu_info`. Every record therefore goes to the last GPU's topic, and the index `parse_csv_data` returns is unused. | Two GPUs, indices 0 and 1, with uuids GPU-1234 and GPU-5678. The record of row `0, 120, -` is published to `nvidia-smi/GPU-5678`. | Look up `gpu_info[str(ret["gpu_id"])]`, so that each record goes to its own GPU's state topic. | high (not executed) | Bridge.RunAsWritten, Bridge.MisroutedRow, Bridge.TwoGpusMisrouted | Bridge.Run, Stream.LoopByGpuIdRoutes, Bridge.MisroutedRecord |

The misrouting needs a listing that names two or more GPUs. The script asks for the listing with `nvidia-smi pci -i 0` (line 25), and whether that command ever prints more than one GPU lies outside the script. The model establishes the behaviour for every listing string, so the discrepancy is in the script's logic whatever the command prints.

`Bridge.Run` is the corrected script: each record goes to the topic of the GPU named in its own row. A row with an index the listing did not name raises the uncaught `KeyError` of the corrected lookup (Stream.ByGpuIdFailure). The one-line correction therefore does more than reroute: the script does not skip reprinted `#` header lines, so a header line `# gpu, pwr, ...` among the data lines becomes a record with index `#gpu`. As written, that record is published to the last GPU's topic and the script runs on to exit status 0. Corrected, the lookup of `#gpu` fails, and the script exits with status 1 at that line (Bridge.ReprintedHeader, Bridge.ReprintedHeaderExit). `Bridge.RunAsWritten` keeps the code as written. The two runs share the session and everything else.

=== FILE: bridge.dfy ===
/**
 * The script end to end: the `nvidia-smi` check, the GPU listing, the
 * MQTT session (last will, connect, discovery, `online`) and the state
 * loop over the `dmon` output, with the exit status the process ends with.
 *
 * As written, every state record goes to the state topic of the GPU the
 * discovery loop visited last (`RunAsWritten`); `Run` routes each record by
 * the GPU index of its own row, which is what the script evidently means.
 */
module Bridge {
  import opened Wrappers
  import opened Text
  import opened OrderedMap
  import opened Sequences
  import opened GpuListing
  import opened Columns
  import opened Mqtt
  import opened Dmon
  import opened Stream
  import opened Discovery

  /** What the script asks of the MQTT client, in order. */
  datatype Event = Connect(will: Publish) | Emit(publish: Publish)

  /** Everything the script sends, and the status it exits with. */
  datatype Outcome = Outcome(events: seq<Event>, exitCode: int)

  /** One `client.publish` per publish, in order. */
  function Emits(ps: seq<Publish>): (es: seq<Event>)
    ensures |es| == |ps|
    ensures forall i :: 0 <= i < |ps| ==> es[i] == Emit(ps[i])
  {
    seq(|ps|, i requires 0 <= i < |ps| => Emit(ps[i]))
  }

  // ---------------------------------------------------------------------------
  // The `dmon` output

  /** The first line of the `dmon` output: the column names. */
  function HeaderLine(dmon: string): string {
    ReadLine(dmon).0
  }

  /** The second line of the `dmon` output: the units. */
  function UnitLine(dmon: string): string {
    ReadLine(ReadLine(dmon).1).0
  }

  /** What the loop reads: the output after the two header lines. */
  function DataOut(dmon: string): string {
    ReadLine(ReadLine(dmon).1).1
  }

  /** The two header reads and the loop's reads take the output apart without loss. */
  lemma DmonSplit(dmon: string)
    ensures HeaderLine(dmon) + UnitLine(dmon) + DataOut(dmon) == dmon
    ensures |dmon| > 0 ==> |HeaderLine(dmon)| > 0
  {
  }

  /** The loop over the data lines, with the header and unit rows of the first two reads. */
  function StateRun(route: Router, dmon: string): StreamRun {
    Loop(route, HeaderRow(HeaderLine(dmon)), HeaderRow(UnitLine(dmon)), DataOut(dmon))
  }

  // ---------------------------------------------------------------------------
  // Routing

  /**
   * The key the module-level `gpu_id` holds after the discovery loop: the
   * last key of `gpu_info`.
   */
  function LastGpuId(info: GpuInfo): string
    requires |info| > 0
  {
    info[|info| - 1].0
  }

  /** The state topic every record goes to as written: that of `gpu_info[gpu_id]`. */
  function RouteTopic(info: GpuInfo): string
    requires |info| > 0
  {
    assert Keys(info)[|info| - 1] == LastGpuId(info);
    StateTopic(Get(info, LastGpuId(info)).value.uuid)
  }

  /** In a well-formed `gpu_info` that topic is the state topic of the last GPU. */
  lemma RouteIsLastGpu(info: GpuInfo)
    requires Valid(info) && |info| > 0
    ensures RouteTopic(info) == StateTopic(info[|info| - 1].1.uuid)
  {
    GetAt(info, |info| - 1);
  }

  // ---------------------------------------------------------------------------
  // The session

  /**
   * After the checks: last will and connect, one discovery publish per GPU
   * and sensor, `online`, then the state loop. Ending on a `KeyError` is an
   * uncaught exception, status 1; ending at the end of the output, status 0.
   */
  function Session(info: GpuInfo, table: seq<(string, Sensor)>, route: Router, dmon: string): Outcome {
    SessionOf(info, table, StateRun(route, dmon))
  }

  /** The session around a given state loop `run`. */
  function SessionOf(info: GpuInfo, table: seq<(string, Sensor)>, run: StreamRun): Outcome {
    Outcome([Connect(Will)] + Emits(Announcements(info, table)) + [Emit(Online)] + Emits(run.published),
            if run.end.Eof? then 0 else 1)
  }

  /** `gpu_info`, unless `nvidia-smi` fails or the listing names no GPU. */
  function Start(toolOk: bool, listing: string): Option<GpuInfo> {
    if !toolOk then None
    else
      var info := GpuInfoOf(listing);
      if |info| == 0 then None else Some(info)
  }

  /**
   * The script as written: every record goes to the topic of the last GPU.
   * It connects, with the last will, exactly when `nvidia-smi` runs and the
   * listing names a GPU, and it exits with status 0 or 1.
   */
  function RunAsWritten(toolOk: bool, listing: string, dmon: string): (o: Outcome)
    ensures o.events == [] <==> !toolOk || NoMatch(listing)
    ensures o.events != [] ==> o.events[0] == Connect(Will)
    ensures o.exitCode == 0 || o.exitCode == 1
    ensures o.exitCode == 0 ==> toolOk && !NoMatch(listing)
  {
    StartSound(toolOk, listing);
    match Start(toolOk, listing)
    case None => Outcome([], 1)
    case Some(info) => Session(info, Table, Fixed(RouteTopic(info)), dmon)
  }

  /**
   * The script with each record routed by its own row's GPU index. It
   * starts and connects as the script as written does, but it exits with
   * status 1 at the first row whose index `gpu_info` does not hold, which
   * includes any reprinted `#` header line (ReprintedHeaderExit).
   */
  function Run(toolOk: bool, listing: string, dmon: string): (o: Outcome)
    ensures o.events == [] <==> !toolOk || NoMatch(listing)
    ensures o.events != [] ==> o.events[0] == Connect(Will)
    ensures o.exitCode == 0 || o.exitCode == 1
    ensures o.exitCode == 0 ==> toolOk && !NoMatch(listing)
  {
    StartSound(toolOk, listing);
    match Start(toolOk, listing)
    case None => Outcome([], 1)
    case Some(info) => Session(info, Table, ByGpuId(info), dmon)
  }

  /**
   * The script starts a session exactly when `nvidia-smi` runs and the
   * listing matches somewhere; the session's `gpu_info` is then the
   * non-empty dictionary built from the listing.
   */
  lemma StartSound(toolOk: bool, listing: string)
    ensures Start(toolOk, listing).Some? <==> toolOk && !NoMatch(listing)
    ensures Start(toolOk, listing).Some? ==>
              && Start(toolOk, listing).value == GpuInfoOf(listing)
              && |GpuInfoOf(listing)| > 0
              && Valid(GpuInfoOf(listing))
  {
    GpuInfoEmpty(listing);
  }

  /**
   * Without `nvidia-smi`, or with a listing that names no GPU, the script
   * sends nothing and exits with status 1; otherwise it sends something.
   */
  lemma RunStopsEarly(toolOk: bool, listing: string, dmon: string)
    ensures Run(toolOk, listing, dmon).events == [] <==> !toolOk || NoMatch(listing)
    ensures RunAsWritten(toolOk, listing, dmon).events == [] <==> !toolOk || NoMatch(listing)
    ensures !toolOk || NoMatch(listing) ==>
              Run(toolOk, listing, dmon).exitCode == 1 && RunAsWritten(toolOk, listing, dmon).exitCode == 1
  {
    StartSound(toolOk, listing);
  }

  /**
   * A session connects with the `offline` will first, then announces every
   * sensor of every GPU, GPU by GPU in table order, then says `online`, then
   * sends the state publishes of the loop in order; it exits with status 0
   * exactly when the loop reached the end of the output.
   */
  lemma SessionShape(info: GpuInfo, table: seq<(string, Sensor)>, run: StreamRun)
    ensures var o := SessionOf(info, table, run);
            var n := |Announcements(info, table)|;
            && n == |info| * |table|
            && |o.events| == n + 2 + |run.published|
            && o.events[0] == Connect(Will)
            && (forall i :: 0 <= i < n ==> o.events[1 + i] == Emit(Announcements(info, table)[i]))
            && o.events[n + 1] == Emit(Online)
            && (forall i :: 0 <= i < |run.published| ==> o.events[n + 2 + i] == Emit(run.published[i]))
            && (o.exitCode == 0 <==> run.end.Eof?)
  {
    AnnouncementsCount(info, table);
    EventLayout(Announcements(info, table), run.published);
  }

  /** Where the connect, the discovery publishes, `online` and the state publishes sit among the events. */
  lemma EventLayout(a: seq<Publish>, ps: seq<Publish>)
    ensures var s := [Connect(Will)] + Emits(a) + [Emit(Online)] + Emits(ps);
            && |s| == |a| + 2 + |ps|
            && s[0] == Connect(Will)
            && (forall i :: 0 <= i < |a| ==> s[1 + i] == Emit(a[i]))
            && s[|a| + 1] == Emit(Online)
            && (forall i :: 0 <= i < |ps| ==> s[|a| + 2 + i] == Emit(ps[i]))
  {
    Layout(Connect(Will), Emits(a), Emit(Online), Emits(ps));
  }

  /**
   * The connect carries the last will, sent at QoS 1 and not retained;
   * every event after it is a publish, discovery, `online` and state alike,
   * sent at QoS 0 and not retained.
   */
  lemma SessionQos(info: GpuInfo, table: seq<(string, Sensor)>, route: Router, dmon: string)
    ensures var o := Session(info, table, route, dmon);
            && |o.events| > 0
            && o.events[0] == Connect(Will)
            && Will.topic == AvailabilityTopic && Will.qos == 1 && !Will.retain
            && forall i :: 1 <= i < |o.events| ==>
                 o.events[i].Emit? && o.events[i].publish.qos == 0 && !o.events[i].publish.retain
  {
    var headers, units, out := HeaderRow(HeaderLine(dmon)), HeaderRow(UnitLine(dmon)), DataOut(dmon);
    var run := Loop(route, headers, units, out);
    assert StateRun(route, dmon) == run;
    LoopSendsDefaults(route, headers, units, out);
    AnnouncementsSendDefaults(info, table);
    SessionOfQos(info, table, run);
  }

  /** The same for a session around any loop run whose publishes use the defaults. */
  lemma SessionOfQos(info: GpuInfo, table: seq<(string, Sensor)>, run: StreamRun)
    requires AllDefaults(run.published) && AllDefaults(Announcements(info, table))
    ensures var o := SessionOf(info, table, run);
            && |o.events| > 0
            && o.events[0] == Connect(Will)
            && forall i :: 1 <= i < |o.events| ==>
                 o.events[i].Emit? && o.events[i].publish.qos == 0 && !o.events[i].publish.retain
  {
    var o := SessionOf(info, table, run);
    var n := |Announcements(info, table)|;
    SessionShape(info, table, run);
    forall i | 1 <= i < |o.events|
      ensures o.events[i].Emit? && o.events[i].publish.qos == 0 && !o.events[i].publish.retain
    {
      if i <= n {
        assert o.events[i] == Emit(Announcements(info, table)[i - 1]);
      } else if i > n + 1 {
        assert o.events[i] == Emit(run.published[i - n - 2]);
      }
    }
  }

  /** Where the parts of `[x] + a + [y] + b` sit. */
  lemma Layout(x: Event, a: seq<Event>, y: Event, b: seq<Event>)
    ensures var s := [x] + a + [y] + b;
            && |s| == |a| + |b| + 2
            && s[0] == x
            && (forall i :: 0 <= i < |a| ==> s[1 + i] == a[i])
            && s[|a| + 1] == y
            && (forall i :: 0 <= i < |b| ==> s[|a| + 2 + i] == b[i])
  {
  }

  // ---------------------------------------------------------------------------
  // The two runs

  /** Once started, both runs are a session over `gpu_info` and the column table. */
  lemma RunsAreSessions(toolOk: bool, listing: string, dmon: string)
    requires Start(toolOk, listing).Some?
    ensures var info := Start(toolOk, listing).value;
            && |info| > 0
            && RunAsWritten(toolOk, listing, dmon) == Session(info, Table, Fixed(RouteTopic(info)), dmon)
            && Run(toolOk, listing, dmon) == Session(info, Table, ByGpuId(info), dmon)
  {
  }

  /**
   * As written, when `dmon` names the `gpu` column first, the session
   * publishes one state per data line and exits with status 0.
   */
  lemma WrittenSessionCompletes(info: GpuInfo, table: seq<(string, Sensor)>, dmon: string)
    requires |info| > 0
    requires var headers := HeaderRow(HeaderLine(dmon)); headers[0] == GpuColumn
    ensures var o := Session(info, table, Fixed(RouteTopic(info)), dmon);
            && o.exitCode == 0
            && |o.events| == |info| * |table| + 2 + |Lines(DataOut(dmon))|
  {
    var run := StateRun(Fixed(RouteTopic(info)), dmon);
    LoopWithGpuFirst(RouteTopic(info), HeaderRow(HeaderLine(dmon)), HeaderRow(UnitLine(dmon)), DataOut(dmon));
    SessionShape(info, table, run);
  }

  // ---------------------------------------------------------------------------
  // The routing discrepancy

  /**
   * With two GPUs or more, a record of any GPU but the last is routed, as
   * written, to a state topic that is not its GPU's, and by row to its own.
   */
  lemma MisroutedRecord(info: GpuInfo, record: Record, g: nat)
    requires Valid(info) && DistinctUuids(info) && g < |info| - 1
    requires record.gpuId == info[g].0
    ensures RouteOf(Fixed(RouteTopic(info)), record) == Success(StateTopic(info[|info| - 1].1.uuid))
    ensures RouteOf(Fixed(RouteTopic(info)), record) != Success(StateTopic(info[g].1.uuid))
    ensures RouteOf(ByGpuId(info), record) == Success(StateTopic(info[g].1.uuid))
  {
    RouteIsLastGpu(info);
    StateTopicInjective(info[|info| - 1].1.uuid, info[g].1.uuid);
    GetAt(info, g);
  }

  /**
   * In the loop: a published record of any GPU but the last goes, as
   * written, to a topic that is not its GPU's, while routing by row sends
   * it to its own.
   */
  lemma MisroutedRow(info: GpuInfo, headers: seq<string>, units: seq<string>, out: string, i: nat, g: nat)
    requires Valid(info) && DistinctUuids(info) && g < |info| - 1
    requires i < |Lines(out)|
    requires var parsed := ParseCsvData(headers, units, DataRow(Lines(out)[i]));
             parsed.Success? && parsed.value.gpuId == info[g].0
    ensures i < |Loop(Fixed(RouteTopic(info)), headers, units, out).published| ==>
              Loop(Fixed(RouteTopic(info)), headers, units, out).published[i].topic != StateTopic(info[g].1.uuid)
    ensures i < |Loop(ByGpuId(info), headers, units, out).published| ==>
              Loop(ByGpuId(info), headers, units, out).published[i].topic == StateTopic(info[g].1.uuid)
  {
    var line := Lines(out)[i];
    var record := ParseCsvData(headers, units, DataRow(line)).value;
    MisroutedRecord(info, record, g);
    if i < |Loop(Fixed(RouteTopic(info)), headers, units, out).published| {
      LoopPublishAt(Fixed(RouteTopic(info)), headers, units, out, i);
      PublishTopic(Fixed(RouteTopic(info)), headers, units, line);
    }
    if i < |Loop(ByGpuId(info), headers, units, out).published| {
      LoopPublishAt(ByGpuId(info), headers, units, out, i);
      PublishTopic(ByGpuId(info), headers, units, line);
    }
  }

  /** Two A100s, indexed 0 and 1. */
  const TwoGpus: GpuInfo := [("0", GpuEntry("NVIDIA A100", "GPU-1234")), ("1", GpuEntry("NVIDIA A100", "GPU-5678"))]

  /**
   * A record of GPU 0 is routed, as written, to GPU 1's topic, and by row
   * to GPU 0's.
   */
  lemma TwoGpusMisrouted(payload: Payload)
    ensures RouteOf(Fixed(RouteTopic(TwoGpus)), Record("0", payload)) == Success(StateTopic("GPU-5678"))
    ensures RouteOf(ByGpuId(TwoGpus), Record("0", payload)) == Success(StateTopic("GPU-1234"))
  {
    assert Keys(TwoGpus)[0] != Keys(TwoGpus)[1];
    MisroutedRecord(TwoGpus, Record("0", payload), 0);
  }

  // ---------------------------------------------------------------------------
  // Reprinted header lines under the corrected routing

  /**
   * A reprinted header line, one that starts with `#` once stripped, parses
   * as a record whose index starts with `#`. Sent to a fixed topic, as
   * written, it is published like any other row; looked up by its index, it
   * is in no `gpu_info` a listing yields, and raises the `KeyError` for it.
   */
  lemma ReprintedHeader(listing: string, topic: string, headers: seq<string>, units: seq<string>, line: string)
    requires |headers| > 0 && headers[0] == GpuColumn && GpuColumn !in headers[1..] && |units| > 0
    requires |Strip(line)| > 0 && Strip(line)[0] == '#'
    ensures StatePublish(Fixed(topic), headers, units, line).Success?
    ensures StatePublish(ByGpuId(GpuInfoOf(listing)), headers, units, line) == Failure(KeyError(DataRow(line)[0]))
  {
    var values := DataRow(line);
    DataRowKeepsHash(line);
    GpuIdIsFirstValue(headers, units, values);
    NoIndexStartsWith(listing, values[0]);
    var record := ParseCsvData(headers, units, values).value;
    assert RouteOf(ByGpuId(GpuInfoOf(listing)), record) == Failure(KeyError(values[0]));
  }

  /**
   * When the data lines hold a reprinted header, the script as written
   * still exits with status 0, while the corrected script crashes there:
   * it exits with status 1 and publishes no state from that line on.
   */
  lemma ReprintedHeaderExit(toolOk: bool, listing: string, dmon: string, i: nat)
    requires toolOk && !NoMatch(listing)
    requires var headers := HeaderRow(HeaderLine(dmon));
             |headers| > 0 && headers[0] == GpuColumn && GpuColumn !in headers[1..]
    requires i < |Lines(DataOut(dmon))|
    requires var line := Lines(DataOut(dmon))[i]; |Strip(line)| > 0 && Strip(line)[0] == '#'
    ensures RunAsWritten(toolOk, listing, dmon).exitCode == 0
    ensures Run(toolOk, listing, dmon).exitCode == 1
    ensures |Run(toolOk, listing, dmon).events| <= |GpuInfoOf(listing)| * |Table| + 2 + i
  {
    StartSound(toolOk, listing);
    var info := GpuInfoOf(listing);
    var headers, units, out := HeaderRow(HeaderLine(dmon)), HeaderRow(UnitLine(dmon)), DataOut(dmon);
    WrittenSessionCompletes(info, Table, dmon);
    ReprintedHeader(listing, RouteTopic(info), headers, units, Lines(out)[i]);
    LoopStopsAtFailure(ByGpuId(info), headers, units, out, i);
    var run := Loop(ByGpuId(info), headers, units, out);
    assert StateRun(ByGpuId(info), dmon) == run;
    SessionShape(info, Table, run);
  }
}

=== FILE: columns.dfy ===
/**
 * The sensor table `column_json_description`: for each column key of the
 * `nvidia-smi dmon -s pucvmet` output, the Home Assistant display name,
 * device class and unit. Python's `None` is `Option.None`.
 */
module Columns {
  import opened Wrappers
  import opened OrderedMap
  import opened Sequences

  /** One sensor description: `{"name": ..., "device_class": ..., "unit": ...}`. */
  datatype Sensor = Sensor(name: string, deviceClass: Option<string>, unit: Option<string>)

  const Celsius := "\U{B0}C"

  /** The table in its declaration order, which is the order the discovery loop walks. */
  const Table: seq<(string, Sensor)> := [
    ("pwr", Sensor("Power Usage", Some("power"), Some("W"))),
    ("gtemp", Sensor("GPU Temperature", Some("temperature"), Some(Celsius))),
    ("mtemp", Sensor("Memory Temperature", Some("temperature"), Some(Celsius))),
    ("sm", Sensor("SM Utilization", None, Some("%"))),
    ("mem", Sensor("Memory Utilization", None, Some("%"))),
    ("enc", Sensor("Encoder Utilization", None, Some("%"))),
    ("dec", Sensor("Decoder Utilization", None, Some("%"))),
    ("jpg", Sensor("JPEG Utilization", None, Some("%"))),
    ("ofa", Sensor("Optical Flow Utilization", None, Some("%"))),
    ("mclk", Sensor("Memory Clock", Some("frequency"), Some("MHz"))),
    ("pclk", Sensor("Processor Clock", Some("frequency"), Some("MHz"))),
    ("pviol", Sensor("Power Violation", None, None)),
    ("tviol", Sensor("Thermal Violation", None, None)),
    ("fb", Sensor("Frame Buffer", Some("data_size"), Some("MB"))),
    ("bar1", Sensor("BAR1 Memory", Some("data_size"), Some("MB"))),
    ("ccpm", Sensor("Compute Cluster Memory", Some("data_size"), Some("MB"))),
    ("sbecc", Sensor("Single Bit ECC Errors", None, Some("errors"))),
    ("dbecc", Sensor("Double Bit ECC Errors", None, Some("errors"))),
    ("pci", Sensor("PCI Throughput", Some("data_rate"), Some("MB/s"))),
    ("rxpci", Sensor("PCI Receive Throughput", Some("data_rate"), Some("MB/s"))),
    ("txpci", Sensor("PCI Transmit Throughput", Some("data_rate"), Some("MB/s")))
  ]

  /** The column keys in table order. */
  const KeyOrder: seq<string> := [
    "pwr", "gtemp", "mtemp", "sm", "mem", "enc", "dec",
    "jpg", "ofa", "mclk", "pclk", "pviol", "tviol", "fb",
    "bar1", "ccpm", "sbecc", "dbecc", "pci", "rxpci", "txpci"
  ]

  /** The table has 21 sensors, under pairwise distinct keys, in `KeyOrder`. */
  lemma TableShape()
    ensures |Table| == 21
    ensures Keys(Table) == KeyOrder
    ensures Valid(Table)
  {
    assert Keys(Table) == KeyOrder;
    KeyOrderDistinct();
  }

  lemma KeyOrderDistinct()
    ensures Distinct(KeyOrder)
  {
    var a, b, c := KeyOrder[..7], KeyOrder[7..14], KeyOrder[14..];
    assert KeyOrder == a + (b + c);
    KeyBlocksDistinct(a, b, c);
    DistinctAppend(b, c);
    DistinctAppend(a, b + c);
  }

  /** The keys in three blocks of seven: each block duplicate-free and no key in two blocks. */
  lemma KeyBlocksDistinct(a: seq<string>, b: seq<string>, c: seq<string>)
    requires a == ["pwr", "gtemp", "mtemp", "sm", "mem", "enc", "dec"]
    requires b == ["jpg", "ofa", "mclk", "pclk", "pviol", "tviol", "fb"]
    requires c == ["bar1", "ccpm", "sbecc", "dbecc", "pci", "rxpci", "txpci"]
    ensures Distinct(a) && Distinct(b) && Distinct(c)
    ensures forall x :: x in b ==> x !in c
    ensures forall x :: x in a ==> x !in b + c
  {
    assert forall x :: x in a ==> x !in b && x !in c;
  }
}

=== FILE: discovery.dfy ===
/**
 * The discovery loop: for every GPU of `gpu_info` and every sensor of the
 * column table, one unretained discovery document on the sensor's
 * Home Assistant config topic, GPU by GPU in table order.
 */
module Discovery {
  import opened Wrappers
  import opened Text
  import opened OrderedMap
  import opened Sequences
  import opened GpuListing
  import opened Columns
  import opened Mqtt

  const DiscoveryPrefix := "homeassistant/sensor/"
  const ConfigSuffix := "/config"
  const TemplateOpen := "{{ value_json."
  const TemplateClose := " }}"

  /** `uuid + "_" + key`: the sensor's `unique_id`. */
  function UniqueId(uuid: string, key: string): string {
    uuid + "_" + key
  }

  /** `homeassistant/sensor/{uuid}_{key}/config`. */
  function ConfigTopic(uuid: string, key: string): string {
    DiscoveryPrefix + uuid + "_" + key + ConfigSuffix
  }

  /** `{{ value_json.<key> }}`: the template picking the sensor's field out of a state payload. */
  function ValueTemplate(key: string): string {
    TemplateOpen + key + TemplateClose
  }

  /** The field a value template reads, when it is one. */
  function TemplateKey(template: string): Option<string> {
    if |template| >= |TemplateOpen| + |TemplateClose|
       && template[..|TemplateOpen|] == TemplateOpen
       && template[|template| - |TemplateClose|..] == TemplateClose
    then Some(template[|TemplateOpen|..|template| - |TemplateClose|])
    else None
  }

  /** The template of a key names exactly that key. */
  lemma TemplateNamesKey(key: string)
    ensures TemplateKey(ValueTemplate(key)) == Some(key)
  {
    var t := ValueTemplate(key);
    assert t[..|TemplateOpen|] == TemplateOpen;
    assert t[|t| - |TemplateClose|..] == TemplateClose;
    assert t[|TemplateOpen|..|t| - |TemplateClose|] == key;
  }

  /** Every config is published on the topic named after its `unique_id`. */
  lemma ConfigTopicOfUniqueId(uuid: string, key: string)
    ensures ConfigTopic(uuid, key) == DiscoveryPrefix + UniqueId(uuid, key) + ConfigSuffix
  {}

  /**
   * A UUID without `_` ends where its `unique_id`'s first `_` is, so the
   * `unique_id` determines both the UUID and the key.
   */
  lemma UniqueIdInjective(u1: string, k1: string, u2: string, k2: string)
    requires '_' !in u1 && '_' !in u2
    ensures UniqueId(u1, k1) == UniqueId(u2, k2) <==> u1 == u2 && k1 == k2
  {
    if UniqueId(u1, k1) == UniqueId(u2, k2) {
      var id := UniqueId(u1, k1);
      FirstUnderscore(u1, k1);
      FirstUnderscore(u2, k2);
      assert u1 == id[..|u1|] && u2 == id[..|u2|];
      assert k1 == id[|u1| + 1..] && k2 == id[|u2| + 1..];
    }
  }

  lemma FirstUnderscore(u: string, k: string)
    requires '_' !in u
    ensures FirstIndex(UniqueId(u, k), '_') == |u|
  {
    var id := UniqueId(u, k);
    assert id[|u|] == '_';
    forall j | 0 <= j < |u|
      ensures id[j] != '_'
    {
      assert id[j] == u[j];
    }
  }

  /** Distinct sensors of UUIDs without `_` get distinct config topics. */
  lemma ConfigTopicInjective(u1: string, k1: string, u2: string, k2: string)
    requires '_' !in u1 && '_' !in u2
    ensures ConfigTopic(u1, k1) == ConfigTopic(u2, k2) <==> u1 == u2 && k1 == k2
  {
    ConfigTopicOfUniqueId(u1, k1);
    ConfigTopicOfUniqueId(u2, k2);
    if ConfigTopic(u1, k1) == ConfigTopic(u2, k2) {
      Unwrap(DiscoveryPrefix, UniqueId(u1, k1), UniqueId(u2, k2), ConfigSuffix);
    }
    UniqueIdInjective(u1, k1, u2, k2);
  }

  lemma Unwrap(pre: string, x: string, y: string, post: string)
    requires pre + x + post == pre + y + post
    ensures x == y
  {
    var t := pre + x + post;
    assert x == t[|pre|..|t| - |post|];
    assert y == (pre + y + post)[|pre|..|t| - |post|];
  }

  /** The discovery document of sensor `key` of GPU `gpu`. */
  function ConfigFor(gpu: GpuEntry, key: string, sensor: Sensor): Config {
    Config(
      device := Device("GPU", [gpu.uuid], "NVIDIA", gpu.name),
      name := sensor.name,
      deviceClass := sensor.deviceClass,
      valueTemplate := ValueTemplate(key),
      unitOfMeasurement := sensor.unit,
      uniqueId := UniqueId(gpu.uuid, key),
      stateClass := "measurement",
      expireAfter := 60,
      enabledByDefault := true,
      availabilityTopic := AvailabilityTopic,
      stateTopic := StateTopic(gpu.uuid))
  }

  /** The publish of that document on its config topic. */
  function Announce(gpu: GpuEntry, key: string, sensor: Sensor): Publish {
    Send(ConfigTopic(gpu.uuid, key), ConfigBody(ConfigFor(gpu, key, sensor)))
  }

  /**
   * A discovery publish goes, unretained at QoS 0, to the config topic named
   * after its unique id `{uuid}_{key}`; its template reads back exactly
   * `key`; it points at the GPU's state topic and the shared availability
   * topic, expires after 60 seconds, and groups the sensor under a device
   * identified by the UUID and modelled by the GPU's name.
   */
  lemma AnnouncementContents(gpu: GpuEntry, key: string, sensor: Sensor)
    ensures var p := Announce(gpu, key, sensor);
            && p.topic == DiscoveryPrefix + UniqueId(gpu.uuid, key) + ConfigSuffix
            && p.qos == 0 && !p.retain
            && p.body.ConfigBody?
            && p.body.config.uniqueId == UniqueId(gpu.uuid, key)
            && TemplateKey(p.body.config.valueTemplate) == Some(key)
            && p.body.config.stateTopic == StateTopic(gpu.uuid)
            && p.body.config.availabilityTopic == AvailabilityTopic
            && p.body.config.expireAfter == 60
            && p.body.config.device.identifiers == [gpu.uuid]
            && p.body.config.device.model == gpu.name
            && p.body.config.name == sensor.name
            && p.body.config.unitOfMeasurement == sensor.unit
  {
    ConfigTopicOfUniqueId(gpu.uuid, key);
    TemplateNamesKey(key);
  }

  /** The inner loop: one publish per sensor of the table, in table order. */
  function AnnounceGpu(gpu: GpuEntry, table: seq<(string, Sensor)>): (ps: seq<Publish>)
    ensures |ps| == |table|
    ensures forall c :: 0 <= c < |table| ==> ps[c] == Announce(gpu, table[c].0, table[c].1)
  {
    seq(|table|, c requires 0 <= c < |table| => Announce(gpu, table[c].0, table[c].1))
  }

  /** The outer loop over `gpu_info`, in its insertion order. */
  function Announcements(info: GpuInfo, table: seq<(string, Sensor)>): seq<Publish>
    decreases |info|
  {
    if |info| == 0 then []
    else AnnounceGpu(info[0].1, table) + Announcements(info[1..], table)
  }

  /** There is one announcement per GPU and sensor. */
  lemma {:induction false} AnnouncementsCount(info: GpuInfo, table: seq<(string, Sensor)>)
    ensures |Announcements(info, table)| == |info| * |table|
    decreases |info|
  {
    if |info| > 0 {
      AnnouncementsCount(info[1..], table);
      assert |info| * |table| == |table| + (|info| - 1) * |table|;
    }
  }

  /** Sensor `c` of GPU `g` is announced at position `g * |table| + c`: GPU by GPU, in table order. */
  lemma {:induction false} AnnouncementAt(info: GpuInfo, table: seq<(string, Sensor)>, g: nat, c: nat)
    requires g < |info| && c < |table|
    ensures g * |table| + c < |Announcements(info, table)|
    ensures Announcements(info, table)[g * |table| + c] == Announce(info[g].1, table[c].0, table[c].1)
    decreases |info|
  {
    var n := |table|;
    if g > 0 {
      var k := (g - 1) * n + c;
      NextRow(g, n, c);
      AnnouncementAt(info[1..], table, g - 1, c);
      var p := Announce(info[g].1, table[c].0, table[c].1);
      assert info[1..][g - 1] == info[g];
      assert k < |Announcements(info[1..], table)| && Announcements(info[1..], table)[k] == p;
      AnnouncementsLater(info, table, k);
      assert Announcements(info, table)[n + k] == p;
    } else {
      AnnouncementsFirst(info, table, c);
    }
  }

  /** Row `g` of a table with `n` columns starts one row after row `g - 1`. */
  lemma NextRow(g: nat, n: nat, c: nat)
    requires g > 0
    ensures g * n + c == n + ((g - 1) * n + c)
  {
    assert g * n == (g - 1) * n + n;
  }

  /** The first GPU's announcements come first. */
  lemma AnnouncementsFirst(info: GpuInfo, table: seq<(string, Sensor)>, c: nat)
    requires 0 < |info| && c < |table|
    ensures c < |Announcements(info, table)|
    ensures Announcements(info, table)[c] == Announce(info[0].1, table[c].0, table[c].1)
  {
    var first := AnnounceGpu(info[0].1, table);
    assert Announcements(info, table) == first + Announcements(info[1..], table);
    assert (first + Announcements(info[1..], table))[c] == first[c];
  }

  /** The other GPUs' announcements follow, shifted by one table. */
  lemma AnnouncementsLater(info: GpuInfo, table: seq<(string, Sensor)>, k: nat)
    requires 0 < |info| && k < |Announcements(info[1..], table)|
    ensures |table| + k < |Announcements(info, table)|
    ensures Announcements(info, table)[|table| + k] == Announcements(info[1..], table)[k]
  {
    var first := AnnounceGpu(info[0].1, table);
    var rest := Announcements(info[1..], table);
    assert |first| == |table|;
    assert Announcements(info, table) == first + rest;
    assert (first + rest)[|first| + k] == rest[k];
  }

  /** Every discovery publish goes out with paho's defaults: QoS 0, not retained. */
  lemma AnnouncementsSendDefaults(info: GpuInfo, table: seq<(string, Sensor)>)
    ensures AllDefaults(Announcements(info, table))
  {
    var a := Announcements(info, table);
    forall i | 0 <= i < |a|
      ensures a[i].qos == 0 && !a[i].retain
    {
      AnnouncementOf(info, table, i);
      var g, c :| 0 <= g < |info| && 0 <= c < |table| && a[i] == Announce(info[g].1, table[c].0, table[c].1);
      AnnouncementContents(info[g].1, table[c].0, table[c].1);
    }
  }

  /** Every announcement is that of some sensor of some GPU. */
  lemma {:induction false} AnnouncementOf(info: GpuInfo, table: seq<(string, Sensor)>, i: nat)
    requires i < |Announcements(info, table)|
    ensures exists g, c :: (0 <= g < |info| && 0 <= c < |table|
      && Announcements(info, table)[i] == Announce(info[g].1, table[c].0, table[c].1))
    decreases |info|
  {
    var first := AnnounceGpu(info[0].1, table);
    var rest := Announcements(info[1..], table);
    if i < |first| {
      assert (first + rest)[i] == first[i];
      assert Announcements(info, table)[i] == Announce(info[0].1, table[i].0, table[i].1);
    } else {
      assert (first + rest)[i] == rest[i - |first|];
      AnnouncementOf(info[1..], table, i - |first|);
      var g, c :| 0 <= g < |info| - 1 && 0 <= c < |table|
        && rest[i - |first|] == Announce(info[1..][g].1, table[c].0, table[c].1);
      assert info[1..][g] == info[g + 1];
    }
  }

  /** No UUID of `gpu_info` contains `_`. */
  ghost predicate UuidsWithoutUnderscore(info: GpuInfo) {
    forall g :: 0 <= g < |info| ==> '_' !in info[g].1.uuid
  }

  /** No two GPUs of `gpu_info` share a UUID. */
  ghost predicate DistinctUuids(info: GpuInfo) {
    forall g, g' :: 0 <= g < g' < |info| ==> info[g].1.uuid != info[g'].1.uuid
  }

  /** The UUIDs `gpu_info` is built with are `GPU-` UUIDs, so none contains `_`. */
  lemma ListedUuidsWithoutUnderscore(listing: string)
    ensures UuidsWithoutUnderscore(GpuInfoOf(listing))
  {
    forall g | 0 <= g < |GpuInfoOf(listing)|
      ensures '_' !in GpuInfoOf(listing)[g].1.uuid
    {
      GpuInfoWellFormed(listing, g);
    }
  }

  /** The unique id a discovery publish carries, or none for another kind of publish. */
  function UniqueIdOf(p: Publish): Option<string> {
    if p.body.ConfigBody? then Some(p.body.config.uniqueId) else None
  }

  /** Two announcements differ in `unique_id` and topic unless they are for the same UUID and key. */
  lemma AnnouncementsApart(g1: GpuEntry, k1: string, s1: Sensor, g2: GpuEntry, k2: string, s2: Sensor)
    requires '_' !in g1.uuid && '_' !in g2.uuid
    requires g1.uuid != g2.uuid || k1 != k2
    ensures UniqueIdOf(Announce(g1, k1, s1)) != UniqueIdOf(Announce(g2, k2, s2))
    ensures Announce(g1, k1, s1).topic != Announce(g2, k2, s2).topic
  {
    UniqueIdInjective(g1.uuid, k1, g2.uuid, k2);
    ConfigTopicInjective(g1.uuid, k1, g2.uuid, k2);
  }

  /**
   * With distinct sensor keys and distinct UUIDs free of `_`, no two
   * announcements share a `unique_id` or a config topic.
   */
  lemma {:induction false} AnnouncementsDistinct(info: GpuInfo, table: seq<(string, Sensor)>)
    requires Valid(table) && UuidsWithoutUnderscore(info) && DistinctUuids(info)
    ensures forall i, j :: 0 <= i < j < |Announcements(info, table)| ==>
      && UniqueIdOf(Announcements(info, table)[i]) != UniqueIdOf(Announcements(info, table)[j])
      && Announcements(info, table)[i].topic != Announcements(info, table)[j].topic
    decreases |info|
  {
    if |info| > 0 {
      var a := Announcements(info, table);
      var first := AnnounceGpu(info[0].1, table);
      var rest := Announcements(info[1..], table);
      assert a == first + rest;
      AnnouncementsDistinct(info[1..], table);
      forall i, j | 0 <= i < j < |a|
        ensures UniqueIdOf(a[i]) != UniqueIdOf(a[j]) && a[i].topic != a[j].topic
      {
        if j < |first| {
          assert a[i] == first[i] && a[j] == first[j];
          assert Keys(table)[i] != Keys(table)[j];
          AnnouncementsApart(info[0].1, table[i].0, table[i].1, info[0].1, table[j].0, table[j].1);
        } else if i >= |first| {
          assert a[i] == rest[i - |first|] && a[j] == rest[j - |first|];
        } else {
          CrossGpu(info, table, i, j - |first|);
        }
      }
    }
  }

  /** An announcement of the first GPU differs from every announcement of the others. */
  lemma CrossGpu(info: GpuInfo, table: seq<(string, Sensor)>, i: nat, j: nat)
    requires |info| > 0 && UuidsWithoutUnderscore(info) && DistinctUuids(info)
    requires i < |table| && j < |Announcements(info[1..], table)|
    ensures UniqueIdOf(Announce(info[0].1, table[i].0, table[i].1)) != UniqueIdOf(Announcements(info[1..], table)[j])
    ensures Announce(info[0].1, table[i].0, table[i].1).topic != Announcements(info[1..], table)[j].topic
  {
    var rest := Announcements(info[1..], table);
    AnnouncementOf(info[1..], table, j);
    var g, c :| 0 <= g < |info| - 1 && 0 <= c < |table|
      && rest[j] == Announce(info[1..][g].1, table[c].0, table[c].1);
    assert info[1..][g] == info[g + 1];
    AnnouncementsApart(info[0].1, table[i].0, table[i].1, info[g + 1].1, table[c].0, table[c].1);
  }

  /** For the script's own table, any listing's GPUs get 21 discovery publishes each. */
  lemma ListingAnnouncementsCount(listing: string)
    ensures |Announcements(GpuInfoOf(listing), Table)| == |GpuInfoOf(listing)| * 21
  {
    TableShape();
    AnnouncementsCount(GpuInfoOf(listing), Table);
  }

  /**
   * For the script's own table and a listing's GPUs with distinct UUIDs,
   * the discovery publishes have pairwise distinct unique ids and config
   * topics.
   */
  lemma ListingAnnouncements(listing: string)
    requires DistinctUuids(GpuInfoOf(listing))
    ensures var a := Announcements(GpuInfoOf(listing), Table);
            forall i, j :: 0 <= i < j < |a| ==> UniqueIdOf(a[i]) != UniqueIdOf(a[j]) && a[i].topic != a[j].topic
  {
    TableShape();
    ListedUuidsWithoutUnderscore(listing);
    AnnouncementsDistinct(GpuInfoOf(listing), Table);
  }
}

=== FILE: dmon.dfy ===
/**
 * The `nvidia-smi dmon --format csv -s pucvmet` stream as the script reads
 * it: the header and unit rows are cleaned of `#` and split, data rows are only
 * split, and `parse_csv_data` turns one data row into the GPU index and
 * the payload published for it.
 */
module Dmon {
  import opened Wrappers
  import opened Text
  import opened OrderedMap
  import opened Sequences

  /** The field separator of the csv rows. */
  const Sep := ", "

  /** The column holding the GPU index. */
  const GpuColumn := "gpu"

  /** The token `nvidia-smi` prints for a value it does not have. */
  const Missing := "-"

  // ---------------------------------------------------------------------------
  // Rows

  /** The header and unit rows: `line.replace('#', '').strip().split(', ')`. */
  function HeaderRow(line: string): (r: seq<string>)
    ensures |r| >= 1
    ensures Join(r, Sep) == Strip(RemoveChar(line, '#'))
    ensures forall i :: 0 <= i < |r| ==> '#' !in r[i]
    ensures forall i :: 0 <= i < |r| ==> !Contains(r[i], Sep)
  {
    var cleaned := Strip(RemoveChar(line, '#'));
    StripAddsNothing(RemoveChar(line, '#'), '#');
    var r := Split(cleaned, Sep);
    forall i | 0 <= i < |r|
      ensures '#' !in r[i]
    {
      if '#' in r[i] {
        JoinAddsPieces(r, Sep, i, '#');
        assert false;
      }
    }
    r
  }

  /** A data row: `line.strip().split(', ')`, with no `#` removal. */
  function DataRow(line: string): (r: seq<string>)
    ensures |r| >= 1
    ensures Join(r, Sep) == Strip(line)
    ensures forall i :: 0 <= i < |r| ==> !Contains(r[i], Sep)
  {
    Split(Strip(line), Sep)
  }

  /** Two occurrences of `", "` never overlap. */
  lemma SepSelfDisjoint()
    ensures SelfDisjoint(Sep)
  {
    assert Sep[1..] == " " && Sep[..1] == ",";
  }

  /**
   * The data row is the only cut of the stripped line into fields free of
   * `", "` that join back to it: the line is split at every `", "`.
   */
  lemma DataRowUnique(line: string, fields: seq<string>)
    requires |fields| >= 1 && Join(fields, Sep) == Strip(line)
    requires forall i :: 0 <= i < |fields| ==> !Contains(fields[i], Sep)
    ensures fields == DataRow(line)
  {
    SepSelfDisjoint();
    SplitUnique(Strip(line), Sep, fields);
  }

  /**
   * Likewise, the header row is the only cut of the cleaned line into
   * fields free of `", "` that join back to it.
   */
  lemma HeaderRowUnique(line: string, fields: seq<string>)
    requires |fields| >= 1 && Join(fields, Sep) == Strip(RemoveChar(line, '#'))
    requires forall i :: 0 <= i < |fields| ==> !Contains(fields[i], Sep)
    ensures fields == HeaderRow(line)
  {
    SepSelfDisjoint();
    SplitUnique(Strip(RemoveChar(line, '#')), Sep, fields);
  }

  /** On a line without `#` the header cleaning and the data splitting agree. */
  lemma HeaderRowWithoutHash(line: string)
    requires '#' !in line
    ensures HeaderRow(line) == DataRow(line)
  {}

  /**
   * A data line that starts with `#`, such as the header `dmon` reprints
   * from time to time, is not skipped: its first field keeps the `#`.
   */
  lemma DataRowKeepsHash(line: string)
    requires |Strip(line)| > 0 && Strip(line)[0] == '#'
    ensures |DataRow(line)[0]| > 0 && DataRow(line)[0][0] == '#'
  {
    var r := DataRow(line);
    JoinStart(r, Sep);
    assert Strip(line)[0] != Sep[0];
  }

  // ---------------------------------------------------------------------------
  // parse_csv_data

  /** The payload: column key to value, `None` standing for JSON `null`. */
  type Payload = seq<(string, Option<string>)>

  /** What `parse_csv_data` returns: `{"gpu_id": ..., "json_object": ...}`. */
  datatype Record = Record(gpuId: string, payload: Payload)

  /** `data["gpu"]` on a dictionary without that key. */
  datatype ParseError = KeyError(key: string)

  function Min3(a: nat, b: nat, c: nat): nat {
    if a <= b && a <= c then a else if b <= c then b else c
  }

  /** How many triples `zip(headers, units, values)` yields. */
  function ZipLength(headers: seq<string>, units: seq<string>, values: seq<string>): (n: nat)
    ensures n <= |headers| && n <= |units| && n <= |values|
    ensures n == |headers| || n == |units| || n == |values|
  {
    Min3(|headers|, |units|, |values|)
  }

  /** The `header: value` pairs of the comprehension, in zip order. */
  function Pairs(headers: seq<string>, units: seq<string>, values: seq<string>): (ps: seq<(string, string)>)
    ensures |ps| == ZipLength(headers, units, values)
    ensures Keys(ps) == headers[..|ps|]
    ensures forall i :: 0 <= i < |ps| ==> ps[i].1 == values[i]
  {
    var n := ZipLength(headers, units, values);
    seq(n, i requires 0 <= i < n => (headers[i], values[i]))
  }

  /** The filter loop: every value equal to `"-"` becomes `None`, the rest are kept verbatim. */
  function NullMissing(data: seq<(string, string)>): (r: Payload)
    ensures Keys(r) == Keys(data)
    ensures forall i :: 0 <= i < |r| ==> (r[i].1.None? <==> data[i].1 == Missing)
    ensures forall i :: 0 <= i < |r| && r[i].1.Some? ==> r[i].1.value == data[i].1
  {
    seq(|data|, i requires 0 <= i < |data| =>
      (data[i].0, if data[i].1 == Missing then None else Some(data[i].1)))
  }

  /**
   * `parse_csv_data(headers, units, values)`. Its one error is the
   * `KeyError` for `gpu`; a record's payload holds each key once, and
   * `gpu` is not among them.
   */
  function ParseCsvData(headers: seq<string>, units: seq<string>, values: seq<string>): (r: Result<Record, ParseError>)
    ensures r.Failure? ==> r.error == KeyError(GpuColumn)
    ensures r.Success? ==> Valid(r.value.payload) && GpuColumn !in Keys(r.value.payload)
  {
    var data := FromPairs(Pairs(headers, units, values));
    match Get(data, GpuColumn)
    case None => Failure(KeyError(GpuColumn))
    case Some(gpuId) => Success(Record(gpuId, NullMissing(Remove(data, GpuColumn))))
  }

  /** The index of the last `gpu` column among the first `n` headers, or -1. */
  function LastGpuColumn(headers: seq<string>, n: nat): int
    requires n <= |headers|
  {
    LastIndex(headers[..n], GpuColumn)
  }

  /**
   * Mismatched row lengths are no error; the one failure is a `KeyError`
   * when no `gpu` header is among the zipped positions.
   */
  lemma ParseFailure(headers: seq<string>, units: seq<string>, values: seq<string>)
    ensures ParseCsvData(headers, units, values).Failure?
        <==> GpuColumn !in headers[..ZipLength(headers, units, values)]
    ensures ParseCsvData(headers, units, values).Failure?
        ==> ParseCsvData(headers, units, values).error == KeyError(GpuColumn)
  {
    FromPairsKeys(Pairs(headers, units, values));
  }

  /** The GPU index is the value zipped with the last `gpu` header. */
  lemma ParseGpuId(headers: seq<string>, units: seq<string>, values: seq<string>)
    requires ParseCsvData(headers, units, values).Success?
    ensures LastGpuColumn(headers, ZipLength(headers, units, values)) >= 0
    ensures ParseCsvData(headers, units, values).value.gpuId
         == values[LastGpuColumn(headers, ZipLength(headers, units, values))]
  {
    var ps := Pairs(headers, units, values);
    FromPairsGet(ps, GpuColumn);
  }

  /**
   * The payload holds each zipped header except `gpu` exactly once, in the
   * order the headers first appear.
   */
  lemma ParsePayloadKeys(headers: seq<string>, units: seq<string>, values: seq<string>)
    requires ParseCsvData(headers, units, values).Success?
    ensures var ks := Keys(ParseCsvData(headers, units, values).value.payload);
            var hs := headers[..ZipLength(headers, units, values)];
            && Distinct(ks)
            && (forall x :: x in ks <==> x in hs && x != GpuColumn)
            && (forall i, j :: 0 <= i < j < |ks| ==> FirstIndex(hs, ks[i]) < FirstIndex(hs, ks[j]))
  {
    var ps := Pairs(headers, units, values);
    var data := FromPairs(ps);
    var rest := Remove(data, GpuColumn);
    var ks := Keys(rest);
    var hs := Keys(ps);
    FromPairsKeys(ps);
    RemoveKeepsOrder(data, GpuColumn);
    forall i, j | 0 <= i < j < |ks|
      ensures FirstIndex(hs, ks[i]) < FirstIndex(hs, ks[j])
    {
      OrderFollows(Keys(data), hs, ks[i], ks[j]);
    }
  }

  /** Keys listed in first-occurrence order compare by position in either list. */
  lemma OrderFollows(ks: seq<string>, xs: seq<string>, a: string, b: string)
    requires FirstOccurrenceOrder(ks, xs) && a in ks && b in ks
    requires FirstIndex(ks, a) < FirstIndex(ks, b)
    ensures FirstIndex(xs, a) < FirstIndex(xs, b)
  {
    var i, j := FirstIndex(ks, a), FirstIndex(ks, b);
    assert ks[i] == a && ks[j] == b;
  }

  /**
   * A payload value is `null` exactly when the token zipped with the last
   * occurrence of its header is `"-"`; any other token, `""` and `"0"`
   * included, is kept verbatim.
   */
  lemma ParsePayloadValue(headers: seq<string>, units: seq<string>, values: seq<string>, key: string)
    requires ParseCsvData(headers, units, values).Success?
    requires key != GpuColumn
    ensures var j := LastIndex(headers[..ZipLength(headers, units, values)], key);
            Get(ParseCsvData(headers, units, values).value.payload, key)
              == if j < 0 then None
                 else if values[j] == Missing then Some(None)
                 else Some(Some(values[j]))
  {
    var ps := Pairs(headers, units, values);
    var data := FromPairs(ps);
    FromPairsGet(ps, key);
    GetRemove(data, GpuColumn, key);
    GetNullMissing(Remove(data, GpuColumn), key);
  }

  /** Looking a key up after the filter loop is looking it up before and filtering the value. */
  lemma GetNullMissing(data: seq<(string, string)>, key: string)
    ensures Get(NullMissing(data), key)
         == match Get(data, key)
            case None => None
            case Some(x) => Some(if x == Missing then None else Some(x))
  {}

  /** The unit row matters only through the number of columns it lets `zip` through. */
  lemma ParseIgnoresUnits(headers: seq<string>, units: seq<string>, units': seq<string>, values: seq<string>)
    requires ZipLength(headers, units, values) == ZipLength(headers, units', values)
    ensures ParseCsvData(headers, units, values) == ParseCsvData(headers, units', values)
  {
    assert Pairs(headers, units, values) == Pairs(headers, units', values);
  }

  /** A row with the GPU index, one reading and one missing reading. */
  lemma ParseReadingAndMissing(a: string, b: string, units: seq<string>, id: string, x: string)
    requires a != b && a != GpuColumn && b != GpuColumn
    requires |units| >= 3 && x != Missing
    ensures ParseCsvData([GpuColumn, a, b], units, [id, x, Missing])
         == Success(Record(id, [(a, Some(x)), (b, None)]))
  {
    var ps := Pairs([GpuColumn, a, b], units, [id, x, Missing]);
    assert ps == [(GpuColumn, id), (a, x), (b, Missing)];
    FromPairsDistinct(ps);
    assert Find(ps, GpuColumn) == Some(0);
    var rest := [(a, x), (b, Missing)];
    assert Remove(ps, GpuColumn) == rest by {
      assert ps[..0] + ps[1..] == rest;
    }
    assert Get(ps, GpuColumn) == Some(id);
    assert NullMissing(rest) == [(a, Some(x)), (b, None)];
  }

  /** A power reading and a missing SM reading for GPU 0. */
  lemma PowerAndMissingSm()
    ensures ParseCsvData(["gpu", "pwr", "sm"], ["Idx", "W", "%"], ["0", "120", "-"])
         == Success(Record("0", [("pwr", Some("120")), ("sm", None)]))
  {
    ParseReadingAndMissing("pwr", "sm", ["Idx", "W", "%"], "0", "120");
  }
}

=== FILE: gpu_listing.dfy ===
/**
 * Device enumeration: `re.findall` of the pattern
 *   GPU (\d+): (\w+ \w+) \(UUID: (GPU-[a-z0-9-]+)\)
 * over the listing text, folded into the insertion-ordered `gpu_info`
 * dictionary from GPU index to name and UUID.
 */
module GpuListing {
  import opened Wrappers
  import opened Text
  import opened Pattern
  import opened OrderedMap
  import opened Sequences
  import opened Scanner

  /** One hit of `findall`: the pattern's three groups. */
  datatype GpuMatch = GpuMatch(index: string, name: string, uuid: string)

  /** The value `gpu_info` keeps per index: `{"name": ..., "uuid": ...}`. */
  datatype GpuEntry = GpuEntry(name: string, uuid: string)

  /** `gpu_info`: GPU index string to its entry, in insertion order. */
  type GpuInfo = seq<(string, GpuEntry)>

  const UuidLead := "GPU-"

  /**
   * The listing pattern as pieces. Group 1 is piece 1, group 2 pieces 3 to 5
   * and group 3 pieces 7 and 8.
   */
  const GpuPattern: seq<Piece> := [
    Lit("GPU "), Plus(Digits), Lit(": "),
    Plus(WordChars), Lit(" "), Plus(WordChars),
    Lit(" (UUID: "), Lit(UuidLead), Plus(UuidChars), Lit(")")
  ]

  /** Each run in the pattern ends where a literal outside its class begins. */
  lemma GpuPatternDeterministic()
    ensures Deterministic(GpuPattern)
  {}

  // ---------------------------------------------------------------------------
  // What a match looks like

  /** Group 2, `\w+ \w+`: two non-empty word runs joined by a single space. */
  predicate IsTwoWords(name: string) {
    var sp := FirstIndex(name, ' ');
    && 0 < sp
    && sp + 1 < |name|
    && AllIn(WordChars, name[..sp])
    && AllIn(WordChars, name[sp + 1..])
  }

  /** Group 3, `GPU-[a-z0-9-]+`. */
  predicate IsUuid(uuid: string) {
    StartsWith(uuid, UuidLead) && |uuid| > |UuidLead| && AllIn(UuidChars, uuid[|UuidLead|..])
  }

  predicate WellFormed(m: GpuMatch) {
    && |m.index| > 0
    && AllIn(Digits, m.index)
    && IsTwoWords(m.name)
    && IsUuid(m.uuid)
  }

  /** The text a match spans in the listing. */
  function Render(m: GpuMatch): string {
    "GPU " + m.index + ": " + m.name + " (UUID: " + m.uuid + ")"
  }

  /** The three groups of a match, read off the chunks the pieces consumed. */
  function Groups(chunks: seq<string>): GpuMatch
    requires |chunks| == |GpuPattern|
  {
    GpuMatch(chunks[1], chunks[3] + chunks[4] + chunks[5], chunks[7] + chunks[8])
  }

  /** The chunks a well-formed match splits into, piece by piece. */
  function Chunks(m: GpuMatch): (chunks: seq<string>)
    requires WellFormed(m)
    ensures |chunks| == |GpuPattern|
  {
    var sp := FirstIndex(m.name, ' ');
    ["GPU ", m.index, ": ", m.name[..sp], " ", m.name[sp + 1..],
     " (UUID: ", UuidLead, m.uuid[|UuidLead|..], ")"]
  }

  /** Unfolds `Concat` once at offset `i`. */
  lemma ConcatFrom(c: seq<string>, i: nat)
    requires i < |c|
    ensures Concat(c[i..]) == c[i] + Concat(c[i + 1..])
  {
    assert c[i..][1..] == c[i + 1..];
  }

  /** Ten chunks concatenated, regrouped into the shape of `Render`. */
  lemma ConcatTen(c: seq<string>)
    requires |c| == 10
    ensures Concat(c) == c[0] + c[1] + c[2] + (c[3] + c[4] + c[5]) + c[6] + (c[7] + c[8]) + c[9]
  {
    assert c[0..] == c;
    ConcatFrom(c, 0); ConcatFrom(c, 1); ConcatFrom(c, 2); ConcatFrom(c, 3); ConcatFrom(c, 4);
    ConcatFrom(c, 5); ConcatFrom(c, 6); ConcatFrom(c, 7); ConcatFrom(c, 8); ConcatFrom(c, 9);
    assert c[10..] == [];
    Regroup(c[0], c[1], c[2], c[3], c[4], c[5], c[6], c[7], c[8], c[9]);
  }

  /** Regrouping ten concatenated pieces into the shape of `Render`. */
  lemma Regroup(a0: string, a1: string, a2: string, a3: string, a4: string,
                a5: string, a6: string, a7: string, a8: string, a9: string)
    ensures a0 + (a1 + (a2 + (a3 + (a4 + (a5 + (a6 + (a7 + (a8 + (a9 + ""))))))))) 
         == a0 + a1 + a2 + (a3 + a4 + a5) + a6 + (a7 + a8) + a9
  {}

  /** A word run has no space in it, so the first space of `w1 + " " + w2` ends `w1`. */
  lemma FirstSpace(w1: string, w2: string)
    requires AllIn(WordChars, w1)
    ensures FirstIndex(w1 + " " + w2, ' ') == |w1|
  {
    var name := w1 + " " + w2;
    assert name[|w1|] == ' ';
    forall j | 0 <= j < |w1|
      ensures name[j] != ' '
    {
      assert name[j] == w1[j];
    }
  }

  /** A well-formed match splits into chunks the pattern accepts and that regroup into it. */
  lemma ChunksOf(m: GpuMatch)
    requires WellFormed(m)
    ensures Conforms(GpuPattern, Chunks(m))
    ensures Groups(Chunks(m)) == m
    ensures Concat(Chunks(m)) == Render(m)
  {
    var c := Chunks(m);
    var sp := FirstIndex(m.name, ' ');
    assert m.name == m.name[..sp] + " " + m.name[sp + 1..];
    assert m.uuid == UuidLead + m.uuid[|UuidLead|..];
    ConcatTen(c);
  }

  /** Chunks the pattern accepts regroup into a well-formed match, and back. */
  lemma GroupsOf(chunks: seq<string>)
    requires Conforms(GpuPattern, chunks)
    ensures WellFormed(Groups(chunks))
    ensures Chunks(Groups(chunks)) == chunks
  {
    var m := Groups(chunks);
    FirstSpace(chunks[3], chunks[5]);
    assert m.name[..|chunks[3]|] == chunks[3];
    assert m.name[|chunks[3]| + 1..] == chunks[5];
    assert m.uuid[..|UuidLead|] == UuidLead;
    assert m.uuid[|UuidLead|..] == chunks[8];
  }

  // ---------------------------------------------------------------------------
  // The matcher

  /** The pattern tried at offset `at` of `s` (Python's `pattern.match(s, at)`). */
  function MatchAt(s: string, at: nat): Option<GpuMatch>
    requires at <= |s|
  {
    match MatchPieces(GpuPattern, s[at..])
    case None => None
    case Some((chunks, _)) => Some(Groups(chunks))
  }

  /** A match at `at` is a well-formed triple whose text starts there. */
  lemma MatchAtSound(s: string, at: nat)
    requires at <= |s| && MatchAt(s, at).Some?
    ensures WellFormed(MatchAt(s, at).value)
    ensures Occurs(s, Render(MatchAt(s, at).value), at)
  {
    var (chunks, rest) := MatchPieces(GpuPattern, s[at..]).value;
    GroupsOf(chunks);
    ChunksOf(Groups(chunks));
    var r := Concat(chunks);
    assert s[at..] == r + rest;
    assert s[at..][..|r|] == r;
    assert s[at..at + |r|] == r;
  }

  /** Every well-formed triple whose text starts at `at` is what the pattern matches there. */
  lemma MatchAtComplete(s: string, at: nat, m: GpuMatch)
    requires at <= |s|
    requires WellFormed(m) && Occurs(s, Render(m), at)
    ensures MatchAt(s, at) == Some(m)
  {
    var r := Render(m);
    var rest := s[at + |r|..];
    assert s[at..] == r + rest;
    ChunksOf(m);
    GpuPatternDeterministic();
    MatchPiecesComplete(GpuPattern, Chunks(m), rest);
  }

  // ---------------------------------------------------------------------------
  // findall

  /** The pattern's outcome at offset `p`: the groups and the length of the matched text. */
  function AttemptAt(s: string, p: nat): (a: Attempt<GpuMatch>)
    requires p <= |s|
    ensures a.Some? ==> 0 < a.value.1 && p + a.value.1 <= |s|
  {
    match MatchAt(s, p)
    case None => None
    case Some(m) =>
      MatchAtSound(s, p);
      Some((m, |Render(m)|))
  }

  /** The pattern's outcome at each offset `0 ..= |s|` of `s`. */
  function Attempts(s: string): (tries: seq<Attempt<GpuMatch>>)
    ensures |tries| == |s| + 1
    ensures forall p :: 0 <= p < |tries| ==> tries[p] == AttemptAt(s, p)
    ensures Fits(tries)
  {
    seq(|s| + 1, p requires 0 <= p <= |s| => AttemptAt(s, p))
  }

  /** `re.findall(pattern, s)`: the groups of each hit, left to right. */
  function FindAll(s: string): (ms: seq<GpuMatch>)
    ensures |ms| == |Scan(Attempts(s), 0)|
    ensures forall k :: 0 <= k < |ms| ==> ms[k] == Scan(Attempts(s), 0)[k].found
  {
    var hits := Scan(Attempts(s), 0);
    seq(|hits|, k requires 0 <= k < |hits| => hits[k].found)
  }

  /** Every triple `findall` returns is well-formed and its text occurs in the listing. */
  lemma FindAllSound(s: string, k: nat)
    requires k < |FindAll(s)|
    ensures WellFormed(FindAll(s)[k])
    ensures exists at :: Occurs(s, Render(FindAll(s)[k]), at)
  {
    var h := Scan(Attempts(s), 0)[k];
    assert Attempts(s)[h.at] == Some((h.found, h.len));
    assert MatchAt(s, h.at) == Some(h.found);
    MatchAtSound(s, h.at);
  }

  /** The pattern matches at no offset of `s`. */
  ghost predicate NoMatch(s: string) {
    forall p :: 0 <= p <= |s| ==> MatchAt(s, p).None?
  }

  /** `findall` comes back empty exactly when the pattern matches at no offset. */
  lemma FindAllEmpty(s: string)
    ensures |FindAll(s)| == 0 <==> NoMatch(s)
  {
    var tries := Attempts(s);
    ScanEmpty(tries);
    if |FindAll(s)| == 0 {
      forall p | 0 <= p <= |s|
        ensures MatchAt(s, p).None?
      {
        assert tries[p] == AttemptAt(s, p);
      }
    } else {
      var p :| 0 <= p < |tries| && tries[p].Some?;
      assert tries[p] == AttemptAt(s, p);
      assert MatchAt(s, p).Some?;
    }
  }

  // ---------------------------------------------------------------------------
  // gpu_info

  /** The assignments `gpu_info[gpu_id] = {...}` in match order. */
  function Assignments(ms: seq<GpuMatch>): (ps: seq<(string, GpuEntry)>)
    ensures |ps| == |ms|
    ensures forall k :: 0 <= k < |ms| ==> ps[k] == (ms[k].index, GpuEntry(ms[k].name, ms[k].uuid))
  {
    seq(|ms|, k requires 0 <= k < |ms| => (ms[k].index, GpuEntry(ms[k].name, ms[k].uuid)))
  }

  /** `gpu_info` after the loop over the matches of the listing. */
  function GpuInfoOf(listing: string): GpuInfo {
    FromPairs(Assignments(FindAll(listing)))
  }

  /** A UUID has no underscore: `GPU-` and `[a-z0-9-]` contain none. */
  lemma UuidHasNoUnderscore(u: string)
    requires IsUuid(u)
    ensures '_' !in u
  {
    forall j | 0 <= j < |u|
      ensures u[j] != '_'
    {
      if j < |UuidLead| {
        assert u[j] == u[..|UuidLead|][j];
      } else {
        assert u[j] == u[|UuidLead|..][j - |UuidLead|];
      }
    }
  }

  /**
   * Every entry of `gpu_info` is keyed by an all-digit index and holds a
   * two-word name and a `GPU-` UUID, which therefore contains no `_`.
   */
  lemma GpuInfoWellFormed(listing: string, i: nat)
    requires i < |GpuInfoOf(listing)|
    ensures |GpuInfoOf(listing)[i].0| > 0 && AllIn(Digits, GpuInfoOf(listing)[i].0)
    ensures IsTwoWords(GpuInfoOf(listing)[i].1.name)
    ensures IsUuid(GpuInfoOf(listing)[i].1.uuid) && '_' !in GpuInfoOf(listing)[i].1.uuid
  {
    var ps := Assignments(FindAll(listing));
    FromPairsBindings(ps);
    var b := GpuInfoOf(listing)[i];
    assert b in ps;
    var k :| 0 <= k < |ps| && ps[k] == b;
    FindAllSound(listing, k);
    var m := FindAll(listing)[k];
    assert b == (m.index, GpuEntry(m.name, m.uuid));
    UuidHasNoUnderscore(m.uuid);
  }

  /** No index of `gpu_info` starts with a character other than a digit. */
  lemma NoIndexStartsWith(listing: string, id: string)
    requires |id| > 0 && !IsDigit(id[0])
    ensures Get(GpuInfoOf(listing), id).None?
  {
    var info := GpuInfoOf(listing);
    forall j | 0 <= j < |info|
      ensures Keys(info)[j] != id
    {
      GpuInfoWellFormed(listing, j);
      assert IsDigit(info[j].0[0]);
    }
  }

  /**
   * `gpu_info` holds each index found once, in the order the indices first
   * appear, and a repeated index takes the name and UUID of its last match.
   */
  lemma GpuInfoContents(listing: string, index: string)
    ensures FirstOccurrenceOrder(Keys(GpuInfoOf(listing)), Keys(Assignments(FindAll(listing))))
    ensures Get(GpuInfoOf(listing), index) == LastValue(Assignments(FindAll(listing)), index)
  {
    FromPairsKeys(Assignments(FindAll(listing)));
    FromPairsGet(Assignments(FindAll(listing)), index);
  }

  /** `gpu_info` is empty exactly when the pattern matches nowhere in the listing. */
  lemma GpuInfoEmpty(listing: string)
    ensures |GpuInfoOf(listing)| == 0 <==> NoMatch(listing)
  {
    FromPairsEmpty(Assignments(FindAll(listing)));
    FindAllEmpty(listing);
  }

  /** A listing that is exactly one match's text yields exactly that GPU. */
  lemma SingleMatchListing(m: GpuMatch)
    requires WellFormed(m)
    ensures FindAll(Render(m)) == [m]
    ensures GpuInfoOf(Render(m)) == [(m.index, GpuEntry(m.name, m.uuid))]
  {
    var s := Render(m);
    assert s[0..|s|] == s;
    MatchAtComplete(s, 0, m);
    var tries := Attempts(s);
    assert tries[0] == Some((m, |s|));
    assert tries[|s|] == None by {
      assert s[|s|..] == "";
      assert MatchPieces(GpuPattern, "") == None;
    }
    assert Scan(tries, |s| + 1) == [];
    assert Scan(tries, |s|) == [];
    assert Scan(tries, 0) == [Hit(0, |s|, m)];
    assert FindAll(s) == [m];
    var ps := Assignments([m]);
    assert ps == [(m.index, GpuEntry(m.name, m.uuid))];
    assert ps[..0] == [];
    assert FromPairs(ps) == Put([], m.index, GpuEntry(m.name, m.uuid));
  }

  /** A listing (the output of `nvidia-smi pci -i 0`) naming one A100 yields exactly that GPU. */
  lemma OneA100Listing()
    ensures GpuInfoOf("GPU 0: NVIDIA A100 (UUID: GPU-1234)")
         == [("0", GpuEntry("NVIDIA A100", "GPU-1234"))]
  {
    var m := GpuMatch("0", "NVIDIA A100", "GPU-1234");
    A100WellFormed();
    A100Render();
    SingleMatchListing(m);
  }

  lemma A100WellFormed()
    ensures WellFormed(GpuMatch("0", "NVIDIA A100", "GPU-1234"))
  {
    A100Name();
    A100Uuid();
  }

  lemma A100Name()
    ensures IsTwoWords("NVIDIA A100")
  {
    assert AllIn(WordChars, "NVIDIA") && AllIn(WordChars, "A100");
    TwoWordsOf("NVIDIA", "A100");
    assert "NVIDIA" + " " + "A100" == "NVIDIA A100";
  }

  lemma A100Uuid()
    ensures IsUuid("GPU-1234")
  {
    assert AllIn(UuidChars, "1234");
    UuidOf("1234");
    assert UuidLead + "1234" == "GPU-1234";
  }

  /** Two non-empty word runs joined by a space are a valid name group. */
  lemma TwoWordsOf(w1: string, w2: string)
    requires |w1| > 0 && AllIn(WordChars, w1)
    requires |w2| > 0 && AllIn(WordChars, w2)
    ensures IsTwoWords(w1 + " " + w2)
  {
    var name := w1 + " " + w2;
    FirstSpace(w1, w2);
    assert name[..|w1|] == w1;
    assert name[|w1| + 1..] == w2;
  }

  /** `GPU-` followed by a non-empty run of `[a-z0-9-]` is a valid UUID group. */
  lemma UuidOf(tail: string)
    requires |tail| > 0 && AllIn(UuidChars, tail)
    ensures IsUuid(UuidLead + tail)
  {
    var u := UuidLead + tail;
    assert u[..|UuidLead|] == UuidLead;
    assert u[|UuidLead|..] == tail;
  }

  lemma A100Render()
    ensures Render(GpuMatch("0", "NVIDIA A100", "GPU-1234")) == "GPU 0: NVIDIA A100 (UUID: GPU-1234)"
  {}
}

=== FILE: mqtt.dfy ===
/**
 * What the script hands to the MQTT client, as records: the topics it
 * publishes to, the Home Assistant discovery document, and the publish
 * calls with their QoS and retain flags. The client and the broker
 * themselves are not modelled.
 */
module Mqtt {
  import opened Wrappers
  import opened Dmon

  /** The namespace of the script's own topics. */
  const Namespace := "nvidia-smi/"

  /** The liveness topic: `nvidia-smi/availability`. */
  const AvailabilityTopic := Namespace + "availability"

  /** `nvidia-smi/{uuid}`: where the readings of one GPU are published. */
  function StateTopic(uuid: string): string {
    Namespace + uuid
  }

  /** The `device` block of a discovery document. */
  datatype Device = Device(name: string, identifiers: seq<string>, manufacturer: string, model: string)

  /** A Home Assistant MQTT sensor discovery document, field for field. */
  datatype Config = Config(
    device: Device,
    name: string,
    deviceClass: Option<string>,
    valueTemplate: string,
    unitOfMeasurement: Option<string>,
    uniqueId: string,
    stateClass: string,
    expireAfter: int,
    enabledByDefault: bool,
    availabilityTopic: string,
    stateTopic: string)

  /** A message body before JSON encoding. */
  datatype Body = ConfigBody(config: Config) | TextBody(text: string) | StateBody(payload: Payload)

  /** One `client.publish(topic, body, qos, retain)` call. */
  datatype Publish = Publish(topic: string, body: Body, qos: nat, retain: bool)

  /** `client.publish(topic, body)` with paho's defaults, QoS 0 and no retain. */
  function Send(topic: string, body: Body): (p: Publish)
    ensures p.topic == topic && p.body == body
    ensures p.qos == 0 && !p.retain
  {
    Publish(topic, body, 0, false)
  }

  /** Every publish of `ps` goes out with paho's defaults: QoS 0, not retained. */
  predicate AllDefaults(ps: seq<Publish>) {
    forall i :: 0 <= i < |ps| ==> ps[i].qos == 0 && !ps[i].retain
  }

  /** The last will: `offline` on the availability topic, QoS 1, not retained. */
  const Will := Publish(AvailabilityTopic, TextBody("offline"), 1, false)

  /** The `online` announcement sent after discovery, with the defaults. */
  const Online := Send(AvailabilityTopic, TextBody("online"))

  /** Distinct UUIDs get distinct state topics. */
  lemma StateTopicInjective(u1: string, u2: string)
    ensures StateTopic(u1) == StateTopic(u2) <==> u1 == u2
  {
    if StateTopic(u1) == StateTopic(u2) {
      assert u1 == StateTopic(u1)[|Namespace|..];
      assert u2 == StateTopic(u2)[|Namespace|..];
    }
  }
}

=== FILE: ordered_map.dfy ===
/**
 * Python dictionaries as the script uses them: insertion-ordered, where
 * assigning to an existing key replaces its value but keeps its position,
 * and `del` removes the key without disturbing the order of the others.
 * A dictionary is an association list whose keys are pairwise distinct.
 */
module OrderedMap {
  import opened Wrappers
  import opened Sequences

  // ---------------------------------------------------------------------------
  // Dictionaries

  /** The keys of an association list, in order. */
  function Keys<K, V>(m: seq<(K, V)>): (ks: seq<K>)
    ensures |ks| == |m|
    ensures forall i :: 0 <= i < |m| ==> ks[i] == m[i].0
  {
    seq(|m|, i requires 0 <= i < |m| => m[i].0)
  }

  /** A well-formed dictionary: no key bound twice. */
  predicate Valid<K(==), V>(m: seq<(K, V)>) {
    Distinct(Keys(m))
  }

  /** Position of the binding for `k`, the first one if there were several. */
  function Find<K(==), V>(m: seq<(K, V)>, k: K): (r: Option<nat>)
    ensures r.None? <==> k !in Keys(m)
    ensures r.Some? ==> r.value < |m| && m[r.value].0 == k
  {
    var i := FirstIndex(Keys(m), k);
    if i < |m| then Some(i) else None
  }

  /** `m.get(k)`: the value bound to `k`, if any. */
  function Get<K(==), V>(m: seq<(K, V)>, k: K): (r: Option<V>)
    ensures r.Some? <==> k in Keys(m)
    ensures r.Some? ==> (k, r.value) in m
  {
    match Find(m, k)
    case Some(i) => Some(m[i].1)
    case None => None
  }

  /** In a well-formed dictionary a binding found anywhere is the one `Get` returns. */
  lemma GetAt<K, V>(m: seq<(K, V)>, i: nat)
    requires Valid(m) && i < |m|
    ensures Get(m, m[i].0) == Some(m[i].1)
  {
    var j := Find(m, m[i].0).value;
    assert Keys(m)[j] == Keys(m)[i];
  }

  /** `m[k] = v`: rebinding keeps the key's position, a new key goes last. */
  function Put<K(==), V>(m: seq<(K, V)>, k: K, v: V): (r: seq<(K, V)>)
    requires Valid(m)
    ensures Valid(r)
    ensures k in Keys(m) ==> Keys(r) == Keys(m)
    ensures k !in Keys(m) ==> Keys(r) == Keys(m) + [k]
    ensures forall b :: b in r ==> b in m || b == (k, v)
  {
    match Find(m, k)
    case Some(i) =>
      var r := m[i := (k, v)];
      assert Keys(r) == Keys(m);
      assert forall j :: 0 <= j < |r| ==> r[j] == m[j] || r[j] == (k, v);
      r
    case None =>
      var r := m + [(k, v)];
      assert Keys(r) == Keys(m) + [k];
      r
  }

  /** After `m[k] = v`, `k` reads `v` and every other key reads what it read before. */
  lemma GetPut<K, V>(m: seq<(K, V)>, k: K, v: V, k': K)
    requires Valid(m)
    ensures Get(Put(m, k, v), k') == if k' == k then Some(v) else Get(m, k')
  {
    var r := Put(m, k, v);
    if k' == k {
      var i :| 0 <= i < |r| && r[i] == (k, v) by {
        match Find(m, k)
        case Some(i) => assert r[i] == (k, v);
        case None => assert r[|m|] == (k, v);
      }
      GetAt(r, i);
    } else if k' in Keys(m) {
      var i :| 0 <= i < |m| && m[i].0 == k';
      GetAt(m, i);
      assert r[i] == m[i];
      GetAt(r, i);
    }
  }

  /** `del m[k]`, without the `KeyError` (callers check membership first). */
  function Remove<K(==), V>(m: seq<(K, V)>, k: K): (r: seq<(K, V)>)
    requires Valid(m)
    ensures Valid(r)
    ensures k !in Keys(r)
    ensures forall k' :: k' in Keys(r) ==> k' in Keys(m)
    ensures forall k' :: k' in Keys(m) && k' != k ==> k' in Keys(r)
  {
    match Find(m, k)
    case None => m
    case Some(i) =>
      var r := m[..i] + m[i + 1..];
      assert Keys(r) == Keys(m)[..i] + Keys(m)[i + 1..];
      r
  }

  /** In a well-formed dictionary each binding is the first occurrence of its key. */
  lemma FirstIndexOfKey<K, V>(m: seq<(K, V)>, j: nat)
    requires Valid(m) && j < |m|
    ensures FirstIndex(Keys(m), m[j].0) == j
  {
    assert Keys(m)[j] == m[j].0;
  }

  /** `del m[k]` leaves every other key's value alone. */
  lemma GetRemove<K, V>(m: seq<(K, V)>, k: K, k': K)
    requires Valid(m)
    ensures Get(Remove(m, k), k') == if k' == k then None else Get(m, k')
  {
    if k' != k && k' in Keys(m) {
      var j := Find(m, k').value;
      GetAt(m, j);
      match Find(m, k)
      case None =>
      case Some(i) =>
        var r := m[..i] + m[i + 1..];
        assert Remove(m, k) == r;
        var at := if j < i then j else j - 1;
        assert r[at] == m[j];
        GetAt(r, at);
    }
  }

  /** `del m[k]` leaves the remaining keys in their order. */
  lemma RemoveKeepsOrder<K, V>(m: seq<(K, V)>, k: K)
    requires Valid(m)
    ensures forall i, j :: 0 <= i < j < |Remove(m, k)| ==>
      FirstIndex(Keys(m), Remove(m, k)[i].0) < FirstIndex(Keys(m), Remove(m, k)[j].0)
  {
    var r := Remove(m, k);
    forall j | 0 <= j < |m|
      ensures FirstIndex(Keys(m), m[j].0) == j
    {
      FirstIndexOfKey(m, j);
    }
    match Find(m, k)
    case None =>
    case Some(i) =>
      assert forall j :: 0 <= j < i ==> r[j] == m[j];
      assert forall j :: i <= j < |r| ==> r[j] == m[j + 1];
  }

  /**
   * A dictionary built by assigning the pairs of `ps` in order, like
   * `{k: v for k, v in ps}` or a loop of `d[k] = v`.
   */
  function FromPairs<K(==), V>(ps: seq<(K, V)>): (m: seq<(K, V)>)
    ensures Valid(m)
    decreases |ps|
  {
    if |ps| == 0 then []
    else Put(FromPairs(ps[..|ps| - 1]), ps[|ps| - 1].0, ps[|ps| - 1].1)
  }

  /** The keys are those of `ps` once each, ordered by where each first appears. */
  ghost predicate FirstOccurrenceOrder<K>(ks: seq<K>, xs: seq<K>) {
    && Distinct(ks)
    && (forall x :: x in ks ==> x in xs)
    && (forall x :: x in xs ==> x in ks)
    && (forall i, j :: 0 <= i < j < |ks| ==> FirstIndex(xs, ks[i]) < FirstIndex(xs, ks[j]))
  }

  /** A key's value in the built dictionary comes from the last pair carrying that key. */
  function LastValue<K(==), V>(ps: seq<(K, V)>, k: K): Option<V> {
    var j := LastIndex(Keys(ps), k);
    if j >= 0 then Some(ps[j].1) else None
  }

  /** Seeing a key again changes neither the key list nor its order. */
  lemma OrderAppendSeen<K>(ks: seq<K>, xs: seq<K>, y: K)
    requires FirstOccurrenceOrder(ks, xs) && y in ks
    ensures FirstOccurrenceOrder(ks, xs + [y])
  {
    forall x | x in xs
      ensures FirstIndex(xs + [y], x) == FirstIndex(xs, x)
    {
      FirstIndexAppend(xs, y, x);
    }
  }

  /** A key seen for the first time goes after all the others. */
  lemma OrderAppendNew<K>(ks: seq<K>, xs: seq<K>, y: K)
    requires FirstOccurrenceOrder(ks, xs) && y !in ks
    ensures FirstOccurrenceOrder(ks + [y], xs + [y])
  {
    var ks' := ks + [y];
    var xs' := xs + [y];
    forall x | x in xs
      ensures FirstIndex(xs', x) == FirstIndex(xs, x)
    {
      FirstIndexAppend(xs, y, x);
    }
    FirstIndexAppend(xs, y, y);
    forall i, j | 0 <= i < j < |ks'|
      ensures FirstIndex(xs', ks'[i]) < FirstIndex(xs', ks'[j])
    {
      assert ks'[i] == ks[i] && ks[i] in xs;
      if j < |ks| {
        assert ks'[j] == ks[j];
      }
    }
  }

  lemma {:induction false} FromPairsKeys<K, V>(ps: seq<(K, V)>)
    ensures FirstOccurrenceOrder(Keys(FromPairs(ps)), Keys(ps))
    decreases |ps|
  {
    if |ps| > 0 {
      var init := ps[..|ps| - 1];
      var p := ps[|ps| - 1];
      FromPairsKeys(init);
      assert Keys(ps) == Keys(init) + [p.0];
      var ks0 := Keys(FromPairs(init));
      if p.0 in ks0 {
        OrderAppendSeen(ks0, Keys(init), p.0);
      } else {
        OrderAppendNew(ks0, Keys(init), p.0);
      }
    }
  }

  lemma {:induction false} FromPairsGet<K, V>(ps: seq<(K, V)>, k: K)
    ensures Get(FromPairs(ps), k) == LastValue(ps, k)
    decreases |ps|
  {
    if |ps| > 0 {
      var init := ps[..|ps| - 1];
      var p := ps[|ps| - 1];
      FromPairsGet(init, k);
      GetPut(FromPairs(init), p.0, p.1, k);
      assert Keys(ps)[..|ps| - 1] == Keys(init);
    }
  }

  /** Every binding of the built dictionary is one of the pairs it was built from. */
  lemma {:induction false} FromPairsBindings<K, V>(ps: seq<(K, V)>)
    ensures forall b :: b in FromPairs(ps) ==> b in ps
    decreases |ps|
  {
    if |ps| > 0 {
      var init := ps[..|ps| - 1];
      FromPairsBindings(init);
      assert forall b :: b in init ==> b in ps;
    }
  }

  /** The built dictionary is empty exactly when there were no pairs. */
  lemma FromPairsEmpty<K, V>(ps: seq<(K, V)>)
    ensures |FromPairs(ps)| == 0 <==> |ps| == 0
  {
    FromPairsKeys(ps);
    if |ps| > 0 {
      assert Keys(ps)[0] in Keys(ps);
    }
  }

  /** Pairs whose keys are already distinct build a dictionary equal to themselves. */
  lemma {:induction false} FromPairsDistinct<K, V>(ps: seq<(K, V)>)
    requires Distinct(Keys(ps))
    ensures FromPairs(ps) == ps
    decreases |ps|
  {
    if |ps| > 0 {
      var init := ps[..|ps| - 1];
      assert Keys(init) == Keys(ps)[..|ps| - 1];
      FromPairsDistinct(init);
      assert ps[|ps| - 1].0 !in Keys(init) by {
        assert Keys(ps)[|ps| - 1] == ps[|ps| - 1].0;
      }
      assert init + [ps[|ps| - 1]] == ps;
    }
  }
}

=== FILE: pattern.dfy ===
/**
 * The fragment of Python's `re` the listing pattern uses: a sequence of
 * literals and greedy one-or-more runs of a character class. Python's
 * matcher backtracks into a greedy run when what follows fails; when every
 * run is followed by a literal starting outside the run's class
 * (`Deterministic`), backtracking can never succeed, so the greedy,
 * non-backtracking `MatchPieces` below decides the same matches.
 */
module Pattern {
  import opened Wrappers
  import opened Text

  /** The character classes `\d`, `\w` and `[a-z0-9-]`, restricted to ASCII. */
  datatype CharClass = Digits | WordChars | UuidChars {
    predicate Has(c: char) {
      match this
      case Digits => IsDigit(c)
      case WordChars => IsWordChar(c)
      case UuidChars => IsUuidChar(c)
    }
  }

  /** One element of a pattern: a literal, or a greedy `[class]+`. */
  datatype Piece = Lit(text: string) | Plus(cls: CharClass)

  /** Every character of `s` is in `cls`. */
  predicate AllIn(cls: CharClass, s: string) {
    forall i :: 0 <= i < |s| ==> cls.Has(s[i])
  }

  /** The text `chunk` is what piece `p` consumes. */
  predicate Consumes(p: Piece, chunk: string) {
    match p
    case Lit(text) => chunk == text
    case Plus(cls) => |chunk| > 0 && AllIn(cls, chunk)
  }

  /** Chunk `i` is consumed by piece `i`, for every piece. */
  predicate Conforms(ps: seq<Piece>, chunks: seq<string>) {
    |chunks| == |ps| && forall i :: 0 <= i < |ps| ==> Consumes(ps[i], chunks[i])
  }

  /** Every run is followed by a non-empty literal whose first character is outside the run's class. */
  ghost predicate Deterministic(ps: seq<Piece>) {
    forall i :: 0 <= i < |ps| && ps[i].Plus? ==>
      i + 1 < |ps| && ps[i + 1].Lit? && |ps[i + 1].text| > 0 && !ps[i].cls.Has(ps[i + 1].text[0])
  }

  /** The longest prefix of `t` inside `cls`: what a greedy run consumes. */
  function Span(cls: CharClass, t: string): (r: string)
    ensures |r| <= |t| && r == t[..|r|]
    ensures AllIn(cls, r)
    ensures |r| < |t| ==> !cls.Has(t[|r|])
  {
    if |t| == 0 || !cls.Has(t[0]) then "" else [t[0]] + Span(cls, t[1..])
  }

  /** A greedy run over `x + y` stops exactly at the end of `x` when `y` begins outside the class. */
  lemma SpanOfConcat(cls: CharClass, x: string, y: string)
    requires AllIn(cls, x)
    requires |y| > 0 && !cls.Has(y[0])
    ensures Span(cls, x + y) == x
  {
    assert (x + y)[|x|] == y[0];
    assert forall i :: 0 <= i < |x| ==> (x + y)[i] == x[i];
    assert (x + y)[..|x|] == x;
  }

  /** What piece `p` consumes at the start of `t`, and what is left. */
  function Consume(p: Piece, t: string): (r: Option<(string, string)>)
    ensures r.Some? ==> Consumes(p, r.value.0) && t == r.value.0 + r.value.1
  {
    match p
    case Lit(text) =>
      if StartsWith(t, text) then
        assert t == t[..|text|] + t[|text|..];
        Some((text, t[|text|..]))
      else None
    case Plus(cls) =>
      var run := Span(cls, t);
      if |run| == 0 then None
      else
        assert t == run + t[|run|..];
        Some((run, t[|run|..]))
  }

  /**
   * Anchored match of the pieces at the start of `t`: the chunk each piece
   * consumed and the unconsumed rest. A match splits `t` into chunks that
   * fit their pieces, followed by the rest.
   */
  function MatchPieces(ps: seq<Piece>, t: string): (r: Option<(seq<string>, string)>)
    decreases |ps|
    ensures r.Some? ==> Conforms(ps, r.value.0) && t == Concat(r.value.0) + r.value.1
  {
    if |ps| == 0 then Some(([], t))
    else
      var first := Consume(ps[0], t);
      if first.None? then None
      else
        var next := MatchPieces(ps[1..], first.value.1);
        if next.None? then None
        else
          ConformsStep(ps, first.value.0, next.value.0, next.value.1);
          Some(([first.value.0] + next.value.0, next.value.1))
  }

  /** A chunk consumed by the first piece, before chunks conforming to the others, conforms to all. */
  lemma ConformsStep(ps: seq<Piece>, chunk: string, chunks: seq<string>, rest: string)
    requires |ps| > 0 && Consumes(ps[0], chunk) && Conforms(ps[1..], chunks)
    ensures Conforms(ps, [chunk] + chunks)
    ensures Concat([chunk] + chunks) + rest == chunk + (Concat(chunks) + rest)
  {
    var all := [chunk] + chunks;
    assert all[1..] == chunks;
    assert forall i :: 1 <= i < |ps| ==> ps[i] == ps[1..][i - 1] && all[i] == chunks[i - 1];
  }

  lemma ConsumeComplete(p: Piece, chunk: string, next: string)
    requires Consumes(p, chunk)
    requires p.Plus? ==> |next| > 0 && !p.cls.Has(next[0])
    ensures Consume(p, chunk + next) == Some((chunk, next))
  {
    match p
    case Lit(text) =>
      assert (chunk + next)[..|text|] == text;
      assert (chunk + next)[|text|..] == next;
    case Plus(cls) =>
      SpanOfConcat(cls, chunk, next);
      assert (chunk + next)[|chunk|..] == next;
  }

  /** Dropping the first piece and chunk keeps a deterministic pattern deterministic and the chunks conforming. */
  lemma TailConforms(ps: seq<Piece>, chunks: seq<string>)
    requires |ps| > 0 && Deterministic(ps) && Conforms(ps, chunks)
    ensures Deterministic(ps[1..]) && Conforms(ps[1..], chunks[1..])
  {
    forall i | 0 <= i < |ps| - 1
      ensures ps[1..][i] == ps[i + 1] && chunks[1..][i] == chunks[i + 1]
    {
    }
  }

  /** In a deterministic pattern, what follows a run's chunk starts outside the run's class. */
  lemma RunStops(ps: seq<Piece>, chunks: seq<string>, rest: string)
    requires |ps| > 0 && ps[0].Plus? && Deterministic(ps) && Conforms(ps, chunks)
    ensures var next := Concat(chunks[1..]) + rest; |next| > 0 && !ps[0].cls.Has(next[0])
  {
    var tail := chunks[1..];
    assert Consumes(ps[1], chunks[1]);
    assert Concat(tail) == chunks[1] + Concat(tail[1..]);
    assert (Concat(tail) + rest)[0] == chunks[1][0];
  }

  /**
   * Conversely, for a deterministic pattern, any split of a text into
   * fitting chunks is found by the matcher.
   */
  lemma {:induction false} MatchPiecesComplete(ps: seq<Piece>, chunks: seq<string>, rest: string)
    requires Deterministic(ps) && Conforms(ps, chunks)
    decreases |ps|
    ensures MatchPieces(ps, Concat(chunks) + rest) == Some((chunks, rest))
  {
    if |ps| > 0 {
      var tail := chunks[1..];
      var next := Concat(tail) + rest;
      assert Concat(chunks) + rest == chunks[0] + next;
      if ps[0].Plus? {
        RunStops(ps, chunks, rest);
      }
      ConsumeComplete(ps[0], chunks[0], next);
      TailConforms(ps, chunks);
      MatchPiecesComplete(ps[1..], tail, rest);
      assert [chunks[0]] + tail == chunks;
    } else {
      assert chunks == [];
      assert Concat(chunks) + rest == rest;
    }
  }
}

=== FILE: scanner.dfy ===
/**
 * The search loop behind Python's `re.findall`, for any pattern that
 * cannot match the empty string: try the pattern at each offset; after a
 * match resume at its end, otherwise one character later.
 */
module Scanner {
  import opened Wrappers

  /** The pattern's outcome at one offset: what it captured and how many characters it spans. */
  type Attempt<T> = Option<(T, nat)>

  /** A match found at offset `at`, spanning `len` characters. */
  datatype Hit<T> = Hit(at: nat, len: nat, found: T) {
    function End(): nat {
      at + len
    }
  }

  /** Every successful attempt spans at least one character and ends within the text. */
  ghost predicate Fits<T>(tries: seq<Attempt<T>>) {
    forall p :: 0 <= p < |tries| && tries[p].Some? ==> 0 < tries[p].value.1 && p + tries[p].value.1 < |tries|
  }

  /** Some hit's span `[at, End())` contains offset `p`. */
  ghost predicate Covered<T>(hits: seq<Hit<T>>, p: nat) {
    exists k :: 0 <= k < |hits| && hits[k].at <= p < hits[k].End()
  }

  /** Each hit is a successful attempt at or after `from`. */
  ghost predicate AreMatches<T>(tries: seq<Attempt<T>>, from: nat, hits: seq<Hit<T>>) {
    forall k :: 0 <= k < |hits| ==>
      from <= hits[k].at && hits[k].End() < |tries| && tries[hits[k].at] == Some((hits[k].found, hits[k].len))
  }

  /** Hits are in order and do not overlap. */
  ghost predicate Ordered<T>(hits: seq<Hit<T>>) {
    forall k, k' :: 0 <= k < k' < |hits| ==> hits[k].End() <= hits[k'].at
  }

  /** Every offset from `from` on where the pattern matches lies inside some hit. */
  ghost predicate NoneMissed<T>(tries: seq<Attempt<T>>, from: nat, hits: seq<Hit<T>>) {
    forall p :: from <= p < |tries| && tries[p].Some? ==> Covered(hits, p)
  }

  /**
   * `hits` is the leftmost non-overlapping sequence of matches from offset
   * `from` on. These three conditions determine it: its first hit is the
   * first offset that matches, and each later hit is the first offset that
   * matches at or after the end of the previous one. Matching offsets inside
   * a hit, other than its start, are the ones `findall` skips.
   */
  ghost predicate LeftmostHits<T>(tries: seq<Attempt<T>>, from: nat, hits: seq<Hit<T>>) {
    AreMatches(tries, from, hits) && Ordered(hits) && NoneMissed(tries, from, hits)
  }

  lemma SkipMiss<T>(tries: seq<Attempt<T>>, from: nat, hits: seq<Hit<T>>)
    requires from < |tries| && tries[from].None? && LeftmostHits(tries, from + 1, hits)
    ensures LeftmostHits(tries, from, hits)
  {}

  lemma ConsMatches<T>(tries: seq<Attempt<T>>, h: Hit<T>, rest: seq<Hit<T>>)
    requires h.End() < |tries| && tries[h.at] == Some((h.found, h.len))
    requires AreMatches(tries, h.End(), rest)
    ensures AreMatches(tries, h.at, [h] + rest)
  {
    var hits := [h] + rest;
    forall k | 0 <= k < |hits|
      ensures h.at <= hits[k].at && hits[k].End() < |tries| && tries[hits[k].at] == Some((hits[k].found, hits[k].len))
    {
      if k > 0 {
        assert hits[k] == rest[k - 1];
      }
    }
  }

  lemma ConsOrdered<T>(h: Hit<T>, rest: seq<Hit<T>>)
    requires forall k :: 0 <= k < |rest| ==> h.End() <= rest[k].at
    requires Ordered(rest)
    ensures Ordered([h] + rest)
  {
    var hits := [h] + rest;
    forall k, k' | 0 <= k < k' < |hits|
      ensures hits[k].End() <= hits[k'].at
    {
      assert hits[k'] == rest[k' - 1];
      if k > 0 {
        assert hits[k] == rest[k - 1];
      }
    }
  }

  lemma ConsNoneMissed<T>(tries: seq<Attempt<T>>, h: Hit<T>, rest: seq<Hit<T>>)
    requires 0 < h.len
    requires NoneMissed(tries, h.End(), rest)
    ensures NoneMissed(tries, h.at, [h] + rest)
  {
    var hits := [h] + rest;
    forall p | h.at <= p < |tries| && tries[p].Some?
      ensures Covered(hits, p)
    {
      if p < h.End() {
        assert hits[0].at <= p < hits[0].End();
      } else {
        var k :| 0 <= k < |rest| && rest[k].at <= p < rest[k].End();
        assert hits[k + 1] == rest[k];
      }
    }
  }

  /** The hits of the search from offset `from`, given the pattern's outcome at each offset. */
  function Scan<T>(tries: seq<Attempt<T>>, from: nat): (hits: seq<Hit<T>>)
    requires Fits(tries)
    decreases |tries| - from
    ensures LeftmostHits(tries, from, hits)
  {
    if from >= |tries| then []
    else
      match tries[from]
      case None =>
        var hits := Scan(tries, from + 1);
        SkipMiss(tries, from, hits);
        hits
      case Some((found, len)) =>
        var h := Hit(from, len, found);
        var rest := Scan(tries, h.End());
        ConsMatches(tries, h, rest);
        ConsOrdered(h, rest);
        ConsNoneMissed(tries, h, rest);
        [h] + rest
  }

  /** The search finds nothing exactly when the pattern matches at no offset. */
  lemma ScanEmpty<T>(tries: seq<Attempt<T>>)
    requires Fits(tries)
    ensures |Scan(tries, 0)| == 0 <==> forall p :: 0 <= p < |tries| ==> tries[p].None?
  {
    var hits := Scan(tries, 0);
    if |hits| > 0 {
      assert tries[hits[0].at].Some?;
    } else {
      forall p | 0 <= p < |tries|
        ensures tries[p].None?
      {
        assert !Covered(hits, p);
      }
    }
  }
}

=== FILE: sequences.dfy ===
/**
 * Sequence helpers the dictionaries and the listing share: duplicate-free
 * sequences and the first and last positions of an element.
 */
module Sequences {
  /** No element occurs twice. */
  predicate Distinct<T(==)>(s: seq<T>) {
    forall i, j :: 0 <= i < j < |s| ==> s[i] != s[j]
  }

  /** Two duplicate-free sequences with no element in common concatenate to a duplicate-free one. */
  lemma DistinctAppend<T>(a: seq<T>, b: seq<T>)
    requires Distinct(a) && Distinct(b)
    requires forall x :: x in a ==> x !in b
    ensures Distinct(a + b)
  {
    forall i, j | 0 <= i < j < |a + b|
      ensures (a + b)[i] != (a + b)[j]
    {
      if j < |a| {
        assert (a + b)[i] == a[i] && (a + b)[j] == a[j];
      } else if i >= |a| {
        assert (a + b)[i] == b[i - |a|] && (a + b)[j] == b[j - |a|];
      } else {
        assert (a + b)[i] in a && (a + b)[j] in b;
      }
    }
  }

  /** Index of the first `x` in `xs`, or `|xs|` when there is none. */
  function FirstIndex<T(==)>(xs: seq<T>, x: T): (r: nat)
    ensures r <= |xs|
    ensures r < |xs| ==> xs[r] == x
    ensures forall j :: 0 <= j < r ==> xs[j] != x
  {
    if |xs| == 0 || xs[0] == x then 0 else 1 + FirstIndex(xs[1..], x)
  }

  /** Index of the last `x` in `xs`, or -1 when there is none. */
  function LastIndex<T(==)>(xs: seq<T>, x: T): (r: int)
    ensures -1 <= r < |xs|
    ensures r >= 0 ==> xs[r] == x
    ensures forall j :: r < j < |xs| ==> xs[j] != x
  {
    if |xs| == 0 then -1
    else if xs[|xs| - 1] == x then |xs| - 1
    else LastIndex(xs[..|xs| - 1], x)
  }

  /** Appending to a sequence does not move the first occurrence of anything already in it. */
  lemma FirstIndexAppend<T>(xs: seq<T>, y: T, x: T)
    ensures x in xs ==> FirstIndex(xs + [y], x) == FirstIndex(xs, x)
    ensures x !in xs && x == y ==> FirstIndex(xs + [y], x) == |xs|
  {
    var r := FirstIndex(xs + [y], x);
    var f := FirstIndex(xs, x);
    if x in xs {
      var w :| 0 <= w < |xs| && xs[w] == x;
      assert f <= w;
      assert (xs + [y])[f] == x;
    } else if x == y {
      assert (xs + [y])[|xs|] == x;
    }
  }
}

=== FILE: stream.dfy ===
/**
 * The read-publish loop over the `dmon` output: `readline()` until it
 * returns the empty string, each line split into a data row, parsed with
 * `parse_csv_data` and published to one state topic. A `KeyError` from the
 * parser is not caught and ends the script.
 */
module Stream {
  import opened Wrappers
  import opened Text
  import opened OrderedMap
  import opened Sequences
  import opened Dmon
  import opened Mqtt
  import opened GpuListing

  // ---------------------------------------------------------------------------
  // readline

  /**
   * `readline()` on the rest `out` of a pipe: everything up to and
   * including the first newline, or all of `out` when it has none (the
   * empty string at end of file), and what remains. The line holds no
   * newline before its last character, and it ends at a newline whenever
   * anything remains; `ReadLineCases` spells out what that determines.
   */
  function ReadLine(out: string): (r: (string, string))
    ensures r.0 + r.1 == out
    ensures |out| > 0 ==> |r.0| > 0
    ensures forall i :: 0 <= i < |r.0| - 1 ==> r.0[i] != '\n'
    ensures |r.1| > 0 ==> |r.0| > 0 && r.0[|r.0| - 1] == '\n'
  {
    var i := FirstIndex(out, '\n');
    if i < |out| then
      assert out[..i + 1] + out[i + 1..] == out;
      (out[..i + 1], out[i + 1..])
    else
      assert forall j :: 0 <= j < |out| ==> out[j] != '\n';
      (out, "")
  }

  /**
   * With a newline in `out`, the line read ends at the first one; with
   * none, the line read is all of `out` and nothing remains.
   */
  lemma ReadLineCases(out: string)
    ensures '\n' in out ==> ReadLine(out).0[|ReadLine(out).0| - 1] == '\n'
    ensures '\n' !in out ==> ReadLine(out) == (out, "")
  {
    var (line, rest) := ReadLine(out);
    if '\n' in out {
      var j :| 0 <= j < |out| && out[j] == '\n';
      if |rest| == 0 {
        assert line == out;
        assert j == |line| - 1;
      }
    }
  }

  /** The lines `readline()` returns before the first empty read. */
  function Lines(out: string): (lines: seq<string>)
    decreases |out|
  {
    if |out| == 0 then []
    else
      var (line, rest) := ReadLine(out);
      [line] + Lines(rest)
  }

  /**
   * The lines are non-empty, end at a newline except possibly the last,
   * hold no other newline, and give back the whole output when joined.
   */
  lemma LinesSplitOutput(out: string)
    ensures Concat(Lines(out)) == out
    ensures forall k :: 0 <= k < |Lines(out)| ==> |Lines(out)[k]| > 0
    ensures forall k :: 0 <= k < |Lines(out)| - 1 ==> Lines(out)[k][|Lines(out)[k]| - 1] == '\n'
    ensures forall k, i :: 0 <= k < |Lines(out)| && 0 <= i < |Lines(out)[k]| - 1 ==> Lines(out)[k][i] != '\n'
  {
    LinesConcat(out);
    forall k | 0 <= k < |Lines(out)|
      ensures |Lines(out)[k]| > 0
      ensures k < |Lines(out)| - 1 ==> Lines(out)[k][|Lines(out)[k]| - 1] == '\n'
      ensures forall i :: 0 <= i < |Lines(out)[k]| - 1 ==> Lines(out)[k][i] != '\n'
    {
      LineAt(out, k);
    }
  }

  /** One `readline()` step: the first line, then the lines of what remains. */
  lemma LinesStep(out: string)
    requires |out| > 0
    ensures Lines(out) == [ReadLine(out).0] + Lines(ReadLine(out).1)
    ensures |ReadLine(out).1| < |out|
  {
  }

  /** Joining the lines gives the output back. */
  lemma {:induction false} LinesConcat(out: string)
    decreases |out|
    ensures Concat(Lines(out)) == out
  {
    if |out| > 0 {
      var line, rest := ReadLine(out).0, ReadLine(out).1;
      LinesStep(out);
      LinesConcat(rest);
      var ls := Lines(out);
      assert ls[0] == line && ls[1..] == Lines(rest);
    }
  }

  /**
   * Line `k` is non-empty and holds no newline before its last character,
   * which is a newline unless it is the last line.
   */
  lemma {:induction false} LineAt(out: string, k: nat)
    decreases |out|
    requires k < |Lines(out)|
    ensures |Lines(out)[k]| > 0
    ensures k < |Lines(out)| - 1 ==> Lines(out)[k][|Lines(out)[k]| - 1] == '\n'
    ensures forall i :: 0 <= i < |Lines(out)[k]| - 1 ==> Lines(out)[k][i] != '\n'
  {
    var line, rest := ReadLine(out).0, ReadLine(out).1;
    LinesStep(out);
    var ls := Lines(out);
    if k > 0 {
      LineAt(rest, k - 1);
      assert ls[k] == Lines(rest)[k - 1];
    } else {
      assert ls[0] == line;
      if |ls| > 1 {
        assert |rest| > 0;
      }
    }
  }

  // ---------------------------------------------------------------------------
  // The loop

  /** How the loop ends: the empty read, or the `KeyError` escaping from `parse_csv_data`. */
  datatype End = Eof | Crash(error: ParseError)

  /** The state publishes the loop made, and how it ended. */
  datatype StreamRun = StreamRun(published: seq<Publish>, end: End)

  /**
   * Where a record goes: as the script is written, every record goes to one
   * fixed topic; `ByGpuId` looks the row's own GPU index up in `gpu_info`
   * instead, raising `KeyError` for an index it does not hold.
   */
  datatype Router = Fixed(topic: string) | ByGpuId(info: GpuInfo)

  /** The state topic for `record`, or the `KeyError` of the lookup. */
  function RouteOf(route: Router, record: Record): Result<string, ParseError> {
    match route
    case Fixed(topic) => Success(topic)
    case ByGpuId(info) =>
      match Get(info, record.gpuId)
      case None => Failure(KeyError(record.gpuId))
      case Some(gpu) => Success(StateTopic(gpu.uuid))
  }

  /** The state publish for data line `line`, when it parses and routes. */
  function StatePublish(route: Router, headers: seq<string>, units: seq<string>, line: string): Result<Publish, ParseError> {
    var record :- ParseCsvData(headers, units, DataRow(line));
    var topic :- RouteOf(route, record);
    Success(Send(topic, StateBody(record.payload)))
  }

  /** What publishing each of `lines` would give, line by line. */
  function Outcomes(route: Router, headers: seq<string>, units: seq<string>, lines: seq<string>)
    : (rs: seq<Result<Publish, ParseError>>)
    decreases |lines|
    ensures |rs| == |lines|
  {
    if |lines| == 0 then []
    else [StatePublish(route, headers, units, lines[0])] + Outcomes(route, headers, units, lines[1..])
  }

  lemma {:induction false} OutcomeAt(route: Router, headers: seq<string>, units: seq<string>, lines: seq<string>, i: nat)
    requires i < |lines|
    ensures Outcomes(route, headers, units, lines)[i] == StatePublish(route, headers, units, lines[i])
    decreases |lines|
  {
    if i > 0 {
      OutcomeAt(route, headers, units, lines[1..], i - 1);
    }
  }

  /**
   * The run a loop over outcomes `rs` must make: the first `|published|`
   * outcomes are publishes, made in order, and the loop stops either after
   * the last outcome or at the first failure, which it ends with.
   */
  predicate Follows(run: StreamRun, rs: seq<Result<Publish, ParseError>>) {
    && |run.published| <= |rs|
    && (forall i :: 0 <= i < |run.published| ==> rs[i] == Success(run.published[i]))
    && (run.end.Eof? <==> |run.published| == |rs|)
    && (run.end.Crash? ==> rs[|run.published|] == Failure(run.end.error))
  }

  /** A first publish, followed by a run that follows the remaining outcomes, follows all of them. */
  lemma FollowsCons(next: StreamRun, p: Publish, rs: seq<Result<Publish, ParseError>>)
    requires Follows(next, rs)
    ensures Follows(StreamRun([p] + next.published, next.end), [Success(p)] + rs)
  {
    var ps := [p] + next.published;
    var rs' := [Success(p)] + rs;
    assert forall i :: 1 <= i < |ps| ==> ps[i] == next.published[i - 1] && rs'[i] == rs[i - 1];
    if next.end.Crash? {
      assert rs'[|ps|] == rs[|next.published|];
    }
  }

  /**
   * The `while True` loop: one publish per line read, in order, until the
   * empty read or a `KeyError`.
   */
  function Loop(route: Router, headers: seq<string>, units: seq<string>, out: string): (run: StreamRun)
    decreases |out|
    ensures Follows(run, Outcomes(route, headers, units, Lines(out)))
  {
    if |out| == 0 then StreamRun([], Eof)
    else
      var (line, rest) := ReadLine(out);
      var lines := Lines(out);
      assert lines == [line] + Lines(rest);
      assert lines[0] == line && lines[1..] == Lines(rest);
      match StatePublish(route, headers, units, line)
      case Failure(e) => StreamRun([], Crash(e))
      case Success(p) =>
        var next := Loop(route, headers, units, rest);
        FollowsCons(next, p, Outcomes(route, headers, units, Lines(rest)));
        StreamRun([p] + next.published, next.end)
  }

  /** Publish `i` of a loop is the outcome of line `i`. */
  lemma LoopPublishAt(route: Router, headers: seq<string>, units: seq<string>, out: string, i: nat)
    requires i < |Loop(route, headers, units, out).published|
    ensures i < |Lines(out)|
    ensures StatePublish(route, headers, units, Lines(out)[i]) == Success(Loop(route, headers, units, out).published[i])
  {
    OutcomeAt(route, headers, units, Lines(out), i);
  }

  /** Every state publish of the loop goes out with paho's defaults: QoS 0, not retained. */
  lemma LoopSendsDefaults(route: Router, headers: seq<string>, units: seq<string>, out: string)
    ensures AllDefaults(Loop(route, headers, units, out).published)
  {
    var run := Loop(route, headers, units, out);
    forall i | 0 <= i < |run.published|
      ensures run.published[i].qos == 0 && !run.published[i].retain
    {
      LoopPublishAt(route, headers, units, out, i);
      StatePublishDefaults(route, headers, units, Lines(out)[i]);
    }
  }

  /** A state publish is sent with QoS 0 and not retained. */
  lemma StatePublishDefaults(route: Router, headers: seq<string>, units: seq<string>, line: string)
    requires StatePublish(route, headers, units, line).Success?
    ensures StatePublish(route, headers, units, line).value.qos == 0
    ensures !StatePublish(route, headers, units, line).value.retain
  {
  }

  /** A state publish goes to the topic its record routes to. */
  lemma PublishTopic(route: Router, headers: seq<string>, units: seq<string>, line: string)
    requires StatePublish(route, headers, units, line).Success?
    ensures var parsed := ParseCsvData(headers, units, DataRow(line));
            && parsed.Success?
            && RouteOf(route, parsed.value).Success?
            && StatePublish(route, headers, units, line).value.topic == RouteOf(route, parsed.value).value
  {
  }

  /**
   * As written, publish `i` is the record parsed from line `i`, sent to the
   * fixed topic with QoS 0 and no retain.
   */
  lemma LoopPublishesLine(topic: string, headers: seq<string>, units: seq<string>, out: string, i: nat)
    requires i < |Loop(Fixed(topic), headers, units, out).published|
    ensures i < |Lines(out)|
    ensures ParseCsvData(headers, units, DataRow(Lines(out)[i])).Success?
    ensures Loop(Fixed(topic), headers, units, out).published[i]
         == Publish(topic, StateBody(ParseCsvData(headers, units, DataRow(Lines(out)[i])).value.payload), 0, false)
  {
    OutcomeAt(Fixed(topic), headers, units, Lines(out), i);
  }

  /**
   * As written, with `gpu` as the first header the loop never crashes: it
   * publishes once for every line, up to the end of the output.
   */
  lemma LoopWithGpuFirst(topic: string, headers: seq<string>, units: seq<string>, out: string)
    requires |headers| > 0 && headers[0] == GpuColumn && |units| > 0
    ensures Loop(Fixed(topic), headers, units, out).end == Eof
    ensures |Loop(Fixed(topic), headers, units, out).published| == |Lines(out)|
  {
    var run := Loop(Fixed(topic), headers, units, out);
    var lines := Lines(out);
    if |run.published| < |lines| {
      OutcomeAt(Fixed(topic), headers, units, lines, |run.published|);
      ParsesWithGpuFirst(headers, units, DataRow(lines[|run.published|]));
    }
  }

  /** A row zipped with `gpu` as the first header always yields a record. */
  lemma ParsesWithGpuFirst(headers: seq<string>, units: seq<string>, values: seq<string>)
    requires |headers| > 0 && headers[0] == GpuColumn && |units| > 0 && |values| > 0
    ensures ParseCsvData(headers, units, values).Success?
  {
    ParseFailure(headers, units, values);
    assert headers[..ZipLength(headers, units, values)][0] == GpuColumn;
  }

  /**
   * With `gpu` as the first header and nowhere else, the record's index is
   * the row's first value, whatever that value is.
   */
  lemma GpuIdIsFirstValue(headers: seq<string>, units: seq<string>, values: seq<string>)
    requires |headers| > 0 && headers[0] == GpuColumn && GpuColumn !in headers[1..]
    requires |units| > 0 && |values| > 0
    ensures ParseCsvData(headers, units, values).Success?
    ensures ParseCsvData(headers, units, values).value.gpuId == values[0]
  {
    ParsesWithGpuFirst(headers, units, values);
    var ps := Pairs(headers, units, values);
    var gpuId := ParseCsvData(headers, units, values).value.gpuId;
    FromPairsBindings(ps);
    assert (GpuColumn, gpuId) in ps;
    var j :| 0 <= j < |ps| && ps[j] == (GpuColumn, gpuId);
    assert Keys(ps)[j] == headers[j] == GpuColumn;
    forall k | 1 <= k < |headers|
      ensures headers[k] != GpuColumn
    {
      assert headers[k] == headers[1..][k - 1];
    }
  }

  /**
   * A line that fails stops the loop: nothing from it or after it is
   * published, and the loop ends in a crash rather than at the end of the
   * output.
   */
  lemma LoopStopsAtFailure(route: Router, headers: seq<string>, units: seq<string>, out: string, i: nat)
    requires i < |Lines(out)|
    requires StatePublish(route, headers, units, Lines(out)[i]).Failure?
    ensures |Loop(route, headers, units, out).published| <= i
    ensures Loop(route, headers, units, out).end.Crash?
  {
    OutcomeAt(route, headers, units, Lines(out), i);
  }

  /**
   * Routed by the row's own GPU index, publish `i` carries the record of
   * line `i` to the state topic of the GPU `gpu_info` holds under that
   * record's index.
   */
  lemma LoopByGpuIdRoutes(info: GpuInfo, headers: seq<string>, units: seq<string>, out: string, i: nat)
    requires i < |Loop(ByGpuId(info), headers, units, out).published|
    ensures i < |Lines(out)|
    ensures var parsed := ParseCsvData(headers, units, DataRow(Lines(out)[i]));
            && parsed.Success?
            && Get(info, parsed.value.gpuId).Some?
            && Loop(ByGpuId(info), headers, units, out).published[i]
               == Publish(StateTopic(Get(info, parsed.value.gpuId).value.uuid), StateBody(parsed.value.payload), 0, false)
  {
    OutcomeAt(ByGpuId(info), headers, units, Lines(out), i);
  }

  /**
   * Routed by the row's own GPU index, a line fails either in
   * `parse_csv_data` or at the lookup of its index, with the `KeyError` for
   * that index.
   */
  lemma ByGpuIdFailure(info: GpuInfo, headers: seq<string>, units: seq<string>, line: string)
    requires StatePublish(ByGpuId(info), headers, units, line).Failure?
    ensures var parsed := ParseCsvData(headers, units, DataRow(line));
            var e := StatePublish(ByGpuId(info), headers, units, line).error;
            || (parsed.Failure? && e == KeyError(GpuColumn))
            || (parsed.Success? && Get(info, parsed.value.gpuId).None? && e == KeyError(parsed.value.gpuId))
  {
  }

  /**
   * Routed by the row's own GPU index, a loop that crashes stops at the line
   * after its last publish: that line's row either fails to parse, with the
   * `KeyError` for `gpu`, or names an index `gpu_info` does not hold, with
   * the `KeyError` for that index.
   */
  lemma LoopByGpuIdCrash(info: GpuInfo, headers: seq<string>, units: seq<string>, out: string)
    requires Loop(ByGpuId(info), headers, units, out).end.Crash?
    ensures var run := Loop(ByGpuId(info), headers, units, out);
            && |run.published| < |Lines(out)|
            && StatePublish(ByGpuId(info), headers, units, Lines(out)[|run.published|]) == Failure(run.end.error)
    ensures var run := Loop(ByGpuId(info), headers, units, out);
            var parsed := ParseCsvData(headers, units, DataRow(Lines(out)[|run.published|]));
            || (parsed.Failure? && run.end.error == KeyError(GpuColumn))
            || (parsed.Success? && Get(info, parsed.value.gpuId).None? && run.end.error == KeyError(parsed.value.gpuId))
  {
    var run := Loop(ByGpuId(info), headers, units, out);
    OutcomeAt(ByGpuId(info), headers, units, Lines(out), |run.published|);
    ByGpuIdFailure(info, headers, units, Lines(out)[|run.published|]);
  }
}

=== FILE: text.dfy ===
/**
 * The string primitives the bridge script relies on, with Python's meaning:
 * the character classes of its one regular expression (restricted to ASCII),
 * `str.strip()`, `str.replace(c, '')` and `str.split(sep)`.
 */
module Text {
  import opened Wrappers

  /** The regular expression class `\d`, ASCII digits only. */
  predicate IsDigit(c: char) {
    '0' <= c <= '9'
  }

  /** The regular expression class `\w`, ASCII letters, digits and underscore only. */
  predicate IsWordChar(c: char) {
    'a' <= c <= 'z' || 'A' <= c <= 'Z' || IsDigit(c) || c == '_'
  }

  /** The class `[a-z0-9-]` that makes up the tail of a GPU UUID. */
  predicate IsUuidChar(c: char) {
    'a' <= c <= 'z' || IsDigit(c) || c == '-'
  }

  /** The characters Python's `str.isspace()` accepts, which `str.strip()` removes. */
  predicate IsSpace(c: char) {
    || c == ' '
    || '\t' <= c <= '\r'
    || '\U{1C}' <= c <= '\U{1F}'
    || c == '\U{85}'
    || c == '\U{A0}'
    || c == '\U{1680}'
    || '\U{2000}' <= c <= '\U{200A}'
    || c == '\U{2028}'
    || c == '\U{2029}'
    || c == '\U{202F}'
    || c == '\U{205F}'
    || c == '\U{3000}'
  }

  /** Every character of `s` is in the class `P`. */
  predicate All(s: string, P: char -> bool) {
    forall i :: 0 <= i < |s| ==> P(s[i])
  }

  predicate StartsWith(s: string, prefix: string) {
    |prefix| <= |s| && s[..|prefix|] == prefix
  }

  /** `"".join(parts)`. */
  function Concat(parts: seq<string>): string {
    if |parts| == 0 then "" else parts[0] + Concat(parts[1..])
  }

  /** `"".join(parts)` is `sep.join(parts)` for the empty separator. */
  lemma {:induction false} ConcatIsJoin(parts: seq<string>)
    ensures Concat(parts) == Join(parts, "")
    decreases |parts|
  {
    if |parts| > 1 {
      ConcatIsJoin(parts[1..]);
      assert parts[0] + "" == parts[0];
    } else if |parts| == 1 {
      assert parts[1..] == [];
      assert parts[0] + "" == parts[0];
    }
  }

  // ---------------------------------------------------------------------------
  // str.replace(c, '')

  /** `s.replace(c, '')`: every occurrence of `c` deleted, everything else kept in order. */
  function RemoveChar(s: string, c: char): (r: string)
    ensures c !in r
    ensures multiset(r) == multiset(s)[c := 0]
    ensures c !in s ==> r == s
  {
    if |s| == 0 then ""
    else
      assert s == [s[0]] + s[1..];
      (if s[0] == c then "" else [s[0]]) + RemoveChar(s[1..], c)
  }

  /**
   * Removal distributes over concatenation. With `RemoveCharOne` this pins
   * `replace` down completely: the kept characters stay in their order.
   */
  lemma {:induction false} RemoveCharAppend(a: string, b: string, c: char)
    ensures RemoveChar(a + b, c) == RemoveChar(a, c) + RemoveChar(b, c)
    decreases |a|
  {
    if |a| == 0 {
      assert a + b == b;
    } else {
      var head := if a[0] == c then "" else [a[0]];
      RemoveCharAppend(a[1..], b, c);
      RemoveCharHead(a + b, c);
      RemoveCharHead(a, c);
      AppendTail(a, b);
      AppendAssoc(head, RemoveChar(a[1..], c), RemoveChar(b, c));
    }
  }

  /** `RemoveChar` on a non-empty string: the first character, unless it is `c`, then the rest. */
  lemma RemoveCharHead(s: string, c: char)
    requires |s| > 0
    ensures RemoveChar(s, c) == (if s[0] == c then "" else [s[0]]) + RemoveChar(s[1..], c)
  {
  }

  /** The first character and the rest of a concatenation whose left part is non-empty. */
  lemma AppendTail(a: string, b: string)
    requires |a| > 0
    ensures (a + b)[0] == a[0] && (a + b)[1..] == a[1..] + b
  {
  }

  /** Concatenation is associative. */
  lemma AppendAssoc(x: string, y: string, z: string)
    ensures x + (y + z) == (x + y) + z
  {
  }

  /** On one character, `c` is dropped and any other character is kept. */
  lemma RemoveCharOne(x: char, c: char)
    ensures RemoveChar([x], c) == if x == c then "" else [x]
  {
    assert [x][1..] == "";
  }

  // ---------------------------------------------------------------------------
  // str.strip()

  function TrimLeft(s: string): (r: string)
    ensures |r| <= |s| && r == s[|s| - |r|..]
    ensures All(s[..|s| - |r|], IsSpace)
    ensures |r| > 0 ==> !IsSpace(r[0])
  {
    if |s| > 0 && IsSpace(s[0]) then TrimLeft(s[1..]) else s
  }

  function TrimRight(s: string): (r: string)
    ensures |r| <= |s| && r == s[..|r|]
    ensures All(s[|r|..], IsSpace)
    ensures |r| > 0 ==> !IsSpace(r[|r| - 1])
  {
    if |s| > 0 && IsSpace(s[|s| - 1]) then TrimRight(s[..|s| - 1]) else s
  }

  /** `r` sits in `s` at offset `lead` with only whitespace before and after it. */
  ghost predicate Surrounded(s: string, r: string, lead: nat) {
    && lead + |r| <= |s|
    && s[lead..lead + |r|] == r
    && All(s[..lead], IsSpace)
    && All(s[lead + |r|..], IsSpace)
  }

  /** How many whitespace characters `s` starts with. */
  function LeadingSpace(s: string): nat {
    |s| - |TrimLeft(s)|
  }

  /** `s.strip()`: `s` without its leading and trailing whitespace. */
  function Strip(s: string): (r: string)
    ensures |r| > 0 ==> !IsSpace(r[0]) && !IsSpace(r[|r| - 1])
    ensures Surrounded(s, r, LeadingSpace(s))
  {
    var t := TrimLeft(s);
    var r := TrimRight(t);
    TrimsSurround(s, t, r);
    r
  }

  /** Trimming the left of `s` to `t`, then the right of `t` to `r`, leaves `r` surrounded in `s`. */
  lemma TrimsSurround(s: string, t: string, r: string)
    requires |t| <= |s| && t == s[|s| - |t|..] && All(s[..|s| - |t|], IsSpace)
    requires |r| <= |t| && r == t[..|r|] && All(t[|r|..], IsSpace)
    ensures Surrounded(s, r, |s| - |t|)
  {
    var lead := |s| - |t|;
    assert s[lead..lead + |r|] == t[..|r|];
    assert s[lead + |r|..] == t[|r|..];
  }

  /**
   * Strip is the only way to cut whitespace off both ends: any infix of `s`
   * surrounded by whitespace and not itself starting or ending with
   * whitespace is `Strip(s)`.
   */
  lemma StripUnique(s: string, r: string, lead: nat)
    requires Surrounded(s, r, lead)
    requires |r| > 0 ==> !IsSpace(r[0]) && !IsSpace(r[|r| - 1])
    ensures Strip(s) == r
  {
    var q := Strip(s);
    var l' := LeadingSpace(s);
    SurroundedFacts(s, r, lead);
    SurroundedFacts(s, q, l');
    if |q| > 0 {
      assert s[l'] == q[0] && s[l' + |q| - 1] == q[|q| - 1];
    }
    if |r| > 0 {
      assert s[lead] == r[0] && s[lead + |r| - 1] == r[|r| - 1];
    }
    if |r| > 0 && |q| > 0 {
      assert lead == l';
      assert lead + |r| == l' + |q|;
      assert r == s[lead..lead + |r|];
    }
  }

  lemma SurroundedFacts(s: string, r: string, lead: nat)
    requires Surrounded(s, r, lead)
    ensures forall i :: 0 <= i < lead ==> IsSpace(s[i])
    ensures forall i :: lead + |r| <= i < |s| ==> IsSpace(s[i])
    ensures forall i :: 0 <= i < |r| ==> s[lead + i] == r[i]
  {
    assert forall i :: 0 <= i < lead ==> s[..lead][i] == s[i];
    assert forall i :: lead + |r| <= i < |s| ==> s[lead + |r|..][i - lead - |r|] == s[i];
  }

  /** Stripping twice is stripping once. */
  lemma StripIdempotent(s: string)
    ensures Strip(Strip(s)) == Strip(s)
  {
    var r := Strip(s);
    assert Surrounded(r, r, 0) by {
      assert r[0..|r|] == r;
    }
    StripUnique(r, r, 0);
  }

  // ---------------------------------------------------------------------------
  // str.split(sep)

  /** `sep` occurs in `t` starting at index `j`. */
  predicate Occurs(t: string, sep: string, j: int) {
    0 <= j && j + |sep| <= |t| && t[j..j + |sep|] == sep
  }

  ghost predicate Contains(t: string, sep: string) {
    exists j :: Occurs(t, sep, j)
  }

  /** The first occurrence of `sep` in `s` at or after `from`, like `s.find(sep, from)`. */
  function FindFrom(s: string, sep: string, from: nat): (r: Option<nat>)
    decreases |s| - from
    ensures r.Some? ==> from <= r.value && Occurs(s, sep, r.value)
    ensures r.Some? ==> forall j :: from <= j < r.value ==> !Occurs(s, sep, j)
    ensures r.None? ==> forall j :: from <= j ==> !Occurs(s, sep, j)
  {
    if from + |sep| > |s| then None
    else if s[from..from + |sep|] == sep then Some(from)
    else FindFrom(s, sep, from + 1)
  }

  /** The inverse of `Split`: `sep.join(parts)`. */
  function Join(parts: seq<string>, sep: string): string {
    if |parts| == 0 then ""
    else if |parts| == 1 then parts[0]
    else parts[0] + sep + Join(parts[1..], sep)
  }

  /**
   * `s.split(sep)` for a non-empty separator: the pieces between the
   * left-to-right, non-overlapping occurrences of `sep`. Joining them with
   * `sep` gives back `s`, no piece contains `sep`, and the first piece ends
   * where the leftmost occurrence starts, which matters when `sep` can
   * overlap itself.
   */
  function Split(s: string, sep: string): (r: seq<string>)
    requires |sep| > 0
    decreases |s|
    ensures |r| >= 1
    ensures Join(r, sep) == s
    ensures forall i :: 0 <= i < |r| ==> !Contains(r[i], sep)
    ensures FindFrom(s, sep, 0).Some? ==> |r| > 1 && r[0] == s[..FindFrom(s, sep, 0).value]
  {
    match FindFrom(s, sep, 0)
    case None =>
      assert !Contains(s, sep);
      [s]
    case Some(k) =>
      var head := s[..k];
      var rest := Split(s[k + |sep|..], sep);
      forall j | 0 <= j && j + |sep| <= |head|
        ensures !Occurs(head, sep, j)
      {
        assert head[j..j + |sep|] == s[j..j + |sep|];
        assert !Occurs(s, sep, j);
      }
      var r := [head] + rest;
      assert r[1..] == rest;
      assert s == head + sep + s[k + |sep|..] by {
        assert s[k..k + |sep|] == sep;
        assert s == s[..k] + s[k..k + |sep|] + s[k + |sep|..];
      }
      r
  }

  /** Stripping only removes characters, so it adds none. */
  lemma StripAddsNothing(s: string, c: char)
    requires c !in s
    ensures c !in Strip(s)
  {
    var r := Strip(s);
    var lead := LeadingSpace(s);
    SurroundedFacts(s, r, lead);
  }

  /** Every character of a piece is a character of the joined string. */
  lemma {:induction false} JoinAddsPieces(parts: seq<string>, sep: string, i: nat, c: char)
    requires i < |parts| && c in parts[i]
    ensures c in Join(parts, sep)
    decreases |parts|
  {
    if |parts| > 1 {
      var whole := Join(parts, sep);
      var later := Join(parts[1..], sep);
      assert whole == parts[0] + sep + later;
      if i == 0 {
        var j :| 0 <= j < |parts[0]| && parts[0][j] == c;
        assert whole[j] == c;
      } else {
        JoinAddsPieces(parts[1..], sep, i - 1, c);
        var j :| 0 <= j < |later| && later[j] == c;
        assert whole[|parts[0] + sep| + j] == c;
      }
    }
  }

  /** A joined string begins with its first piece, or with the separator when that piece is empty. */
  lemma JoinStart(parts: seq<string>, sep: string)
    requires |parts| >= 1
    ensures StartsWith(Join(parts, sep), parts[0])
    ensures |parts| == 1 ==> Join(parts, sep) == parts[0]
    ensures |parts| > 1 && |parts[0]| == 0 ==> StartsWith(Join(parts, sep), sep)
  {
    var j := Join(parts, sep);
    if |parts| > 1 {
      assert j == parts[0] + (sep + Join(parts[1..], sep));
      assert j[..|parts[0]|] == parts[0];
      if |parts[0]| == 0 {
        assert j == sep + Join(parts[1..], sep);
        assert j[..|sep|] == sep;
      }
    } else {
      assert j[..|parts[0]|] == parts[0];
    }
  }

  /** No proper suffix of `sep` is also a prefix of it, so two occurrences never overlap. */
  predicate SelfDisjoint(sep: string) {
    forall d :: 0 < d < |sep| ==> sep[d..] != sep[..|sep| - d]
  }

  /**
   * For a separator whose occurrences cannot overlap, `Split` is the only
   * way to cut `s` into pieces free of `sep` that join back to `s`.
   */
  lemma {:induction false} SplitUnique(s: string, sep: string, parts: seq<string>)
    requires |sep| > 0 && SelfDisjoint(sep)
    requires |parts| >= 1 && Join(parts, sep) == s
    requires forall i :: 0 <= i < |parts| ==> !Contains(parts[i], sep)
    ensures parts == Split(s, sep)
    decreases |parts|
  {
    if |parts| == 1 {
      assert s == parts[0];
      assert FindFrom(s, sep, 0).None?;
    } else {
      var head, tail := parts[0], Join(parts[1..], sep);
      assert s == head + sep + tail;
      var n := |head|;
      assert s[n..n + |sep|] == sep;
      assert Occurs(s, sep, n);
      forall j | 0 <= j < n
        ensures !Occurs(s, sep, j)
      {
        if j + |sep| <= n {
          assert s[j..j + |sep|] == head[j..j + |sep|];
          assert !Occurs(head, sep, j);
        } else if j + |sep| <= |s| {
          var d := n - j;
          assert s[j..j + |sep|][d..] == s[n..n + |sep| - d] == sep[..|sep| - d];
          assert sep[d..] != sep[..|sep| - d];
        }
      }
      var k := FindFrom(s, sep, 0).value;
      assert k == n;
      assert s[..n] == head;
      assert s[n + |sep|..] == tail;
      forall i | 0 <= i < |parts[1..]|
        ensures !Contains(parts[1..][i], sep)
      {
        assert parts[1..][i] == parts[i + 1];
      }
      SplitUnique(tail, sep, parts[1..]);
      assert parts == [head] + parts[1..];
    }
  }
}

=== FILE: wrappers.dfy ===
/** Failure-compatible datatypes used across the model. */
module Wrappers {

  /** A value that may be absent; also stands for Python's `None`. */
  datatype Option<+T> = None | Some(value: T) {

    predicate IsFailure() {
      None?
    }

    function PropagateFailure<U>(): Option<U>
      requires None?
    {
      None
    }

    function Extract(): T
      requires Some?
    {
      value
    }
  }

  /** The outcome of an operation that may raise an error. */
  datatype Result<+R, +E> = Success(value: R) | Failure(error: E) {

    predicate IsFailure() {
      Failure?
    }

    function PropagateFailure<U>(): Result<U, E>
      requires Failure?
    {
      Failure(error)
    }

    function Extract(): R
      requires Success?
    {
      value
    }
  }
}
